=== FILE: README.md ===
# DVB frontend compatibility layer, in Dafny

This project models the core of `lib/libdvbv5/dvb-fe.c` from libdvbv5. That
file presents a DVB frontend through a single property store (a list of
command/value pairs, the "DVBv5" interface). It serves that store on both
kinds of device:

- **Modern devices** speak the property-list calls.
- **Legacy devices** speak only the fixed-layout DVBv3 calls.

The model covers:

- **Session creation:** how a session is opened, including the decision to
  use legacy calls and the derivation of supported systems from the legacy
  family and capability bits.
- **Delivery-system switching:** how the current system is switched, and how
  the store is rebuilt for it.
- **Compatible-system selection:** choosing a system for a wanted standard,
  including the ISDB-T defaults.
- **The property store:** retrieval from and storage into it.
- **Get and set:** the translation each performs, through both the modern
  calls and the legacy parameter block. The legacy side uses a per-family
  field table and the bandwidth code lookup.
- **Statistics:** statistics reads and event handling.
- **Satellite control:** the SEC/DiSEqC satellite control calls.

The model is purely functional:

- **Sessions:** a session is an immutable `Session` value.
- **Operations:** each operation returns the new session, the C return code
  and the trace of device calls it issued.
- **Device replies:** these are inputs to the operation.
- **Catalogs:** the static catalogs (per-system command tables, bandwidth
  table, last user command) are a `Catalog` parameter. `Catalog.WellFormed`
  states what the code silently assumes of them.

Modules follow the source's structure:

| Module | Contents |
|---|---|
| `DvbTypes` | Shared fixed-width integer types, `Option`, `Prop`, `EINVAL` and `AsInt32`. |
| `DelSys`, `Cmd` | Constants of the Linux DVB frontend API. |
| `Catalog` | The static catalogs. |
| `Classify` | `is_satellite`, `dvbv3_type` and `is_dvbv3_delsys`. |
| `PropStore` | The store's first-match scans, runs of stores, and the copy that drops user-range commands. |
| `Device` | The call trace and the reply types. |
| `Frontend` | The session, opening and closing, and switching. |
| `Compat` | `dvb_set_compat_delivery_system`. |
| `LegacyMap` | The legacy field tables and bandwidth codes. |
| `Parms` | `dvb_fe_get_parms` and `dvb_fe_set_parms`. |
| `Stats` | The statistics calls. |
| `Event` | `dvb_fe_get_event`. |
| `Sec` | The satellite control calls. |

## Model

| member | source | states |
|---|---|---|
| DvbTypes.AsInt32 | lib/libdvbv5/dvb-fe.c:691-731 | the 32-bit status handed back as a C `int` is congruent to it modulo 2^32 and negative exactly when its top bit is set |
| Catalog.NameSlotOf | lib/libdvbv5/dvb-fe.c:408-424 | ids below 256 index the kernel name table directly, ids up to the last user command index the user table rebased to 256, and every other id has no name |
| Catalog.NameSlotOfBijective | lib/libdvbv5/dvb-fe.c:408-424 | the id-to-name-slot mapping is one-to-one on named ids, sends every id below 256 to its kernel-table slot and every user id to its user-table slot rebased to 256 |
| Classify.SatelliteIsQpsk | lib/libdvbv5/dvb-fe.c:213-334 | a system drives an LNB exactly when it is in the QPSK legacy family and is not DSS |
| Classify.Dvbv3DelsysIsCanonical | lib/libdvbv5/dvb-fe.c:311-344 | the four legacy systems are exactly the canonical members of their own known families |
| Classify.LegacyMappedIsKnown | lib/libdvbv5/dvb-fe.c:541-570 | every system the legacy field mapping handles belongs to a known legacy family |
| PropStore.FindFrom | lib/libdvbv5/dvb-fe.c:453-467 | the scan finds the first in-use entry holding the command, or reports that no in-use entry holds it |
| PropStore.Retrieve | lib/libdvbv5/dvb-fe.c:453-467 | retrieval fails exactly when no in-use entry holds the command; otherwise it returns the value of an in-use entry holding it |
| PropStore.Store | lib/libdvbv5/dvb-fe.c:469-483 | a store keeps every command in place, fails with `EINVAL` and no change exactly when the command is absent, and otherwise rewrites only the first in-use entry for it |
| PropStore.RetrieveAt | lib/libdvbv5/dvb-fe.c:453-467 | retrieval returns the value of the first in-use entry holding the command |
| PropStore.FindFromSameCmds | lib/libdvbv5/dvb-fe.c:453-483 | the scans look only at commands, so arrays with the same commands find the same entry |
| PropStore.StoreRetrieve | lib/libdvbv5/dvb-fe.c:453-483 | after a store, the command reads back the stored value (or stays absent) and every other command reads back what it did before |
| PropStore.StoreCurrentValue | lib/libdvbv5/dvb-fe.c:469-483 | storing the value a command already reads back changes nothing |
| PropStore.StoreRestore | lib/libdvbv5/dvb-fe.c:469-483 | storing a command's old value back undoes an earlier store to it |
| PropStore.LastValueAt | lib/libdvbv5/dvb-fe.c:541-568 | in a run of stores, the value a command ends with is that of its last store |
| PropStore.StoreAllEntry | lib/libdvbv5/dvb-fe.c:541-568 | a run of stores changes an entry only if it is its command's first in-use entry and the run stores that command, and then it holds the last value stored |
| PropStore.StoreAllRetrieve | lib/libdvbv5/dvb-fe.c:541-568 | after a run of stores, an in-use command reads back the last value the run gave it, or its old value |
| PropStore.StoreAllUntouched | lib/libdvbv5/dvb-fe.c:541-568 | entries whose command the run never stores keep their contents |
| PropStore.StoreAllOverwrites | lib/libdvbv5/dvb-fe.c:541-568 | a run that stores a command makes the result independent of what that command's first in-use entry held before |
| PropStore.StoreAllIdempotent | lib/libdvbv5/dvb-fe.c:385-403 | repeating a run of stores has no further effect |
| PropStore.StoreAllBeyond | lib/libdvbv5/dvb-fe.c:469-483 | stores never touch entries past the in-use count |
| PropStore.StoreAllCurrentValues | lib/libdvbv5/dvb-fe.c:541-568 | a run that only writes back values the store already holds changes nothing |
| PropStore.LastValueUniform | lib/libdvbv5/dvb-fe.c:518-530 | if every store of a command in a run carries the same value, the command ends with that value |
| PropStore.CopyFeProps | lib/libdvbv5/dvb-fe.c:485-492 | the copy is exactly the standard-range entries in their original order: an order-preserving subsequence holding only standard-range commands, keeping every standard-range entry, and as long as the number of standard-range entries (so duplicates are kept too) |
| PropStore.SubsequenceCmds | lib/libdvbv5/dvb-fe.c:518-522 | projecting an order-preserving subsequence of entries onto their commands gives an order-preserving subsequence of the commands |
| PropStore.CopyFePropsKeepsStandard | lib/libdvbv5/dvb-fe.c:485-492 | a list without user-range commands is copied unchanged |
| Frontend.AddParmsForSys | lib/libdvbv5/dvb-fe.c:246-270 | the builder writes the table's commands with value 0 and then the delivery-system entry, returning the count; a system without a table leaves the array alone and yields the positive `EINVAL` |
| Frontend.Activate | lib/libdvbv5/dvb-fe.c:300-307 | the target system always becomes current, with the store holding exactly its list; without a table the in-use count becomes `EINVAL` |
| Frontend.ActivateIdempotent | lib/libdvbv5/dvb-fe.c:246-307 | rebuilding twice for the same system equals rebuilding once |
| Frontend.ActivateForgetsInUse | lib/libdvbv5/dvb-fe.c:257-265 | the rebuild keeps only the entries past the delivery-system entry, so arrays that agree there rebuild alike |
| Frontend.SetSys | lib/libdvbv5/dvb-fe.c:272-309 | a switch away from satellite to a non-satellite system powers the LNB off first, even when refused; a legacy session refuses a change with `EINVAL` and no state change; a refused legacy switch issues only that power-off call; a modern switch then issues exactly one set call carrying `DTV_DELIVERY_SYSTEM` = the new system, and returns that call's errno when it fails; success makes the system current with its list; a legacy session stays on a mapped system |
| Frontend.SetSysIdempotent | lib/libdvbv5/dvb-fe.c:272-309 | switching twice to the same system with the same device answer leaves the session as switching once |
| Frontend.SetSysFixed | lib/libdvbv5/dvb-fe.c:300-304 | with the builder's error detected, a system without a table is refused and the session is unchanged |
| Frontend.SetSysWithoutTable | lib/libdvbv5/dvb-fe.c:253-307 | as written, switching to a system without a table returns 0, makes it current and leaves `EINVAL` entries in use; the intended switch returns `EINVAL` and changes nothing |
| Frontend.ActivatedRetrieve | lib/libdvbv5/dvb-fe.c:257-266 | right after a switch every table command reads back 0, and the delivery-system entry reads back the system |
| Frontend.RetrieveParm | lib/libdvbv5/dvb-fe.c:453-467 | retrieval on a session fails exactly when no in-use entry holds the command, and otherwise returns the value of the first in-use entry holding it |
| Frontend.StoreParm | lib/libdvbv5/dvb-fe.c:469-483 | a store on a session changes only the property values, gives `EINVAL` and no change exactly for an absent command, and otherwise rewrites exactly the first in-use entry holding the command (the array is the old one with that single slot replaced), so the command reads back the value while all others are unchanged |
| Frontend.UsesLegacy | lib/libdvbv5/dvb-fe.c:113-116 | legacy calls are used exactly when forced or when the API is older than 5.5; older than 5.0 always uses them |
| Frontend.LegacySystems | lib/libdvbv5/dvb-fe.c:118-148 | each system is listed exactly when the source adds it: DVB-S for QPSK, DVB-S2 and Turbo for QPSK from API 5.0 with the second-generation or turbo-FEC capability, DVB-C annex A for QAM, DVB-T for OFDM, DVB-T2 for OFDM from API 5.0 with the second-generation capability, ATSC and DVB-C annex B for ATSC with VSB or QAM capability; nothing else is listed, entries are distinct, the canonical system comes first for non-ATSC families, DVB-S2 precedes Turbo and ATSC precedes annex B |
| Frontend.LegacySystemsExamples | lib/libdvbv5/dvb-fe.c:118-148 | a second-generation QPSK device on API 5.5 lists DVB-S then DVB-S2; an OFDM device without capabilities lists DVB-T only; an ATSC device with 8-VSB and QAM-64 lists ATSC then DVB-C annex B |
| Frontend.Start | lib/libdvbv5/dvb-fe.c:196-207 | an undefined current system falls back to the first supported one, which is then activated |
| Frontend.Open | lib/libdvbv5/dvb-fe.c:43-211 | opening fails exactly when the information call fails, no legacy system is derivable, or the enumeration fails or is empty; a legacy session lists the derived systems and starts on the first of them, for every family including ATSC; a modern session lists the enumerated systems and starts on the reported one (the first when undefined); the session obeys the invariant |
| Frontend.OpenOfdmScenario | lib/libdvbv5/dvb-fe.c:113-148 | a terrestrial device with second-generation capability on API 5.0 with legacy calls forced supports DVB-T and DVB-T2 and starts on DVB-T |
| Compat.LastFallback | lib/libdvbv5/dvb-fe.c:372-376 | the scan yields a listed system of the wanted family that is not a legacy system whenever one exists, and the start value otherwise |
| Compat.LastFallbackIsLast | lib/libdvbv5/dvb-fe.c:372-376 | of several such systems the scan yields the last one listed |
| Compat.Seed | lib/libdvbv5/dvb-fe.c:382-404 | any wanted system other than ISDB-T leaves the session unchanged, and the defaults change only property values, never commands |
| Compat.SetCompat | lib/libdvbv5/dvb-fe.c:346-406 | a listed system is switched to and 0 returned; otherwise -1 with no change and no call exactly when no fallback exists; a found fallback switches to the wanted system, not the fallback, and then seeds the ISDB-T defaults; on both successful paths the calls are exactly those of the switch; a legacy session keeps its system |
| Compat.SetCompatIdempotent | lib/libdvbv5/dvb-fe.c:346-406 | selecting the same wanted system twice leaves the session as selecting it once |
| Compat.IsdbtDefaultsDistinct | lib/libdvbv5/dvb-fe.c:385-403 | the ISDB-T defaults name each command once |
| Compat.IsdbtSeeded | lib/libdvbv5/dvb-fe.c:379-404 | after a fallback to ISDB-T, each default whose command is in the ISDB-T list reads back its default |
| Compat.IsdbtOnDvbtOnly | lib/libdvbv5/dvb-fe.c:362-379 | ISDB-T wanted on a device listing only DVB-T fails with -1 and changes nothing |
| Compat.IsdbtOnDvbt2 | lib/libdvbv5/dvb-fe.c:346-406 | ISDB-T wanted on a modern DVB-T/DVB-T2 device succeeds, becomes current and reads back a 6 MHz bandwidth |
| LegacyMap.FamilyFields | lib/libdvbv5/dvb-fe.c:541-570 | the legacy paths have a field table exactly for DVB-S, DVB-C annex A, ATSC, DVB-C annex B and DVB-T |
| LegacyMap.LegacyFieldsOk | lib/libdvbv5/dvb-fe.c:541-570 | every family's table names each command once and gives each a distinct place in the block |
| LegacyMap.BandwidthHzOf | lib/libdvbv5/dvb-fe.c:558-561 | a code below the last table index gives that table entry, any other code gives 0 |
| LegacyMap.CodeFrom | lib/libdvbv5/dvb-fe.c:630-633 | the search stops at the first entry equal to the target or at the terminating 0, whichever comes first |
| LegacyMap.BandwidthCode | lib/libdvbv5/dvb-fe.c:630-633 | the code indexes the first entry equal to the Hz value, or the terminating 0 if no earlier entry matches |
| LegacyMap.BandwidthRoundTrip | lib/libdvbv5/dvb-fe.c:558-634 | Hz to code and back gives the value again exactly when it is listed before the terminating 0 (or is 0), and 0 otherwise |
| LegacyMap.ReplyStores | lib/libdvbv5/dvb-fe.c:541-568 | the get path stores one value per table field, in table order, taken from the matching block field |
| LegacyMap.ReplyReadBackAll | lib/libdvbv5/dvb-fe.c:541-568 | after the read-back, every field's in-use command reads back the reply's value for that field, and an unused one stays unused |
| LegacyMap.ReplyCommonReadBack | lib/libdvbv5/dvb-fe.c:546-547 | after the read-back, the frequency and inversion commands, when in use, hold the reply's frequency and inversion |
| LegacyMap.ReplyReadBack | lib/libdvbv5/dvb-fe.c:541-568 | after the read-back, each field's in-use command reads back the reply's value for that field |
| LegacyMap.FillElsewhere | lib/libdvbv5/dvb-fe.c:613-641 | filling leaves every block field that no table field occupies as it was |
| LegacyMap.FillField | lib/libdvbv5/dvb-fe.c:613-641 | after filling, each field holds its command's stored value (as a code for the bandwidth), or what it held before if the command is absent or the field is the as-written OFDM bandwidth |
| LegacyMap.LegacyRoundTrip | lib/libdvbv5/dvb-fe.c:613-641 | when the device echoes the block it was sent, storing its reply gives back the store the block was built from; this holds for every mapped family but OFDM as written, and for OFDM too with the intended fill and a listed bandwidth |
| LegacyMap.OfdmBandwidthNeverSet | lib/libdvbv5/dvb-fe.c:629-634 | as written, the OFDM block's bandwidth word stays uninitialised whatever the store holds |
| LegacyMap.OfdmBandwidthFixed | lib/libdvbv5/dvb-fe.c:629-634 | with the intended fill, a stored bandwidth reaches the block as its legacy code |
| LegacyMap.OfdmRoundTripBreaks | lib/libdvbv5/dvb-fe.c:629-634 | a stored 8 MHz bandwidth, echoed through a block whose bandwidth word held code 2, reads back as 6 MHz |
| Parms.Reload | lib/libdvbv5/dvb-fe.c:502-516 | the get path lays the store out for the current system, keeping the existing values, with the delivery-system entry holding the system and `DTV_TUNE` just past the entries in use |
| Parms.ReloadReloaded | lib/libdvbv5/dvb-fe.c:502-516 | re-laying out a store already laid out for its system changes nothing |
| Parms.GetRequest | lib/libdvbv5/dvb-fe.c:518-522 | the get request names exactly the in-use standard-range commands in their order: a subsequence of the in-use commands, only standard-range ones, every standard-range one, and as many as there are standard-range entries |
| Parms.SatGet | lib/libdvbv5/dvb-fe.c:573-578 | on a satellite system the stored frequency is converted back from the intermediate frequency and the helper's code returned; elsewhere nothing changes and 0 is returned |
| Parms.LegacyGet | lib/libdvbv5/dvb-fe.c:535-571 | the legacy read-back stores the reply's frequency and inversion into whichever of the two commands is in use, on the unmapped path too; it fails with `-EINVAL` exactly for an unmapped family, otherwise makes each in-use field command read back the reply's value, and touches no command outside the mapping |
| Parms.GetParms | lib/libdvbv5/dvb-fe.c:494-579 | a system without a table gives `EINVAL` and no change; a modern read returns its errno on failure and, as written, on a non-satellite system leaves every value but the delivery-system entry as it was, on failure keeps every value but that entry on any system, and on success on a satellite system leaves exactly what the satellite helper makes of the reloaded store; a legacy read returns -1 when its call fails and `-EINVAL` for an unmapped family; on a successful legacy read every command of the family's legacy layout that the system's table lists reads back the value the device reported (the satellite frequency excepted, which the satellite helper converts); success returns the satellite helper's code or 0 |
| Parms.LegacyReadBackKept | lib/libdvbv5/dvb-fe.c:535-578 | after a legacy reply is stored and the satellite conversion applied, each command of the family's legacy layout that the system's table lists reads back the reply's field, except the satellite frequency |
| Parms.CopyBack | lib/libdvbv5/dvb-fe.c:518-530 | with the read copied back, every table command the device is asked for reads back its answer |
| Parms.GetParmsFixed | lib/libdvbv5/dvb-fe.c:518-530 | with the modern read copied back, every standard-range table command reads back the device's answer; the legacy path is unchanged |
| Parms.GetParmsDiscardsAnswer | lib/libdvbv5/dvb-fe.c:518-533 | as written, the device's answer to a modern read changes neither the session nor the return code |
| Parms.ModernSatGetDrifts | lib/libdvbv5/dvb-fe.c:518-578 | as written, a successful modern get on a satellite system keeps every command of the reloaded store but the frequency, which becomes the LNB conversion of the reloaded value; a second get converts it again |
| Parms.ModernGetKeepsEcho | lib/libdvbv5/dvb-fe.c:494-533 | with the intended copy-back, a device answering with the stored values leaves the store as it was |
| Parms.SatSet | lib/libdvbv5/dvb-fe.c:590-593 | on a satellite system the stored frequency is remembered and replaced by the intermediate frequency; nothing else changes |
| Parms.Restore | lib/libdvbv5/dvb-fe.c:651-654 | with a saved frequency, the frequency command (if in use) holds the saved value again and no other command changes; with nothing saved the session is unchanged |
| Parms.RestoreSatSet | lib/libdvbv5/dvb-fe.c:590-654 | restoring after the satellite conversion gives the original session back |
| Parms.SetRequest | lib/libdvbv5/dvb-fe.c:595-600 | the set request is exactly the in-use standard-range entries in their order (a subsequence of the in-use entries as long as the number of standard-range ones, with no user-range command) followed by `DTV_TUNE`, within the array's capacity |
| Parms.SetParms | lib/libdvbv5/dvb-fe.c:581-657 | an unmapped legacy family gives `-EINVAL` with no call; otherwise one set call, -1 exactly when it fails; success leaves the session unchanged; as written a failed satellite set leaves the intermediate frequency stored |
| Parms.SetParmsFixed | lib/libdvbv5/dvb-fe.c:581-657 | with the frequency restored on every path and the OFDM bandwidth encoded, a set never changes the session |
| Parms.SetParmsRetryConvertsTwice | lib/libdvbv5/dvb-fe.c:601-654 | as written, a retry after a failed satellite set converts the frequency twice; the intended set converts it once |
| Parms.ParkedNeverUnmapped | lib/libdvbv5/dvb-fe.c:569-643 | a session that keeps to a system the legacy mapping knows, satellite included, never gets `-EINVAL` from the set path, and from the get path only when that is the satellite helper's own return code |
| Parms.LegacySetGetRoundTrip | lib/libdvbv5/dvb-fe.c:494-657 | set then get on a legacy non-OFDM session, DVB-S included, through a device echoing the block, returns 0 and leaves the session as it was, both from the session the set started on and, when the set's call succeeds, from the session the set leaves, provided on satellite that the LNB conversion is undone by the get side and the satellite helper succeeds |
| Parms.SatGetAfterEcho | lib/libdvbv5/dvb-fe.c:531-578 | on a legacy session, storing an echo of the converted block and converting the frequency back gives the session back, when the LNB conversion is reversible on the stored frequency |
| Parms.LegacySetGetRoundTripFixed | lib/libdvbv5/dvb-fe.c:611-657 | with the intended set the same round trip holds for every mapped family, OFDM included whenever the stored bandwidth is listed, also when the get runs on the session the set leaves |
| Stats.RetrieveStats | lib/libdvbv5/dvb-fe.c:659-673 | retrieval fails exactly for a command that is not a statistic, and otherwise returns that statistic's entry |
| Stats.StoreStats | lib/libdvbv5/dvb-fe.c:675-689 | a store gives `EINVAL` and no change exactly for a non-statistic; otherwise that statistic reads back the value and the others are unchanged |
| Stats.StatsReadBack | lib/libdvbv5/dvb-fe.c:659-673 | a statistic reads back from its own entry, because the statistics commands are distinct |
| Stats.StoreReadings | lib/libdvbv5/dvb-fe.c:691-718 | storing one value per statistic leaves each entry holding its own value, in command order |
| Stats.GetStats | lib/libdvbv5/dvb-fe.c:691-731 | the five reads are issued in order; the entries then hold status, error rate, strength and SNR, each failed read replaced by its default, and, as written, the SNR again in the block-count entry; the status comes back as a C `int`, -1 when its read failed |
| Stats.GetStatsFixed | lib/libdvbv5/dvb-fe.c:716-718 | with the block count stored, the block-count entry reads back the device's count and every other entry is as written |
| Stats.GetStatsDropsUcb | lib/libdvbv5/dvb-fe.c:716-718 | as written the device's block count has no effect; a reading of 7 blocks with SNR 300 leaves 300 |
| Event.GetEvent | lib/libdvbv5/dvb-fe.c:734-789 | a modern session re-reads its parameters and statistics, returning the status; a legacy session returns -1 when the event call fails, otherwise stores the status, returns `-EINVAL` for an unmapped family and reads the statistics otherwise, never touching the property store |
| Event.LegacyEventKeepsStore | lib/libdvbv5/dvb-fe.c:745-789 | on a legacy session parked on a mapped system an event leaves the property store alone and returns the status |
| Sec.SecVoltage | lib/libdvbv5/dvb-fe.c:797-815 | the voltage is off exactly when `on` is 0 and 18 V exactly when `on` and `v18` are both non-zero; the return code is -1 when the call fails and 0 when it succeeds |
| Sec.LnbHighVoltage | lib/libdvbv5/dvb-fe.c:828-839 | the flag is normalised to 0 or 1, and is 1 exactly for a non-zero argument; the return code is -1 when the call fails and 0 when it succeeds |
| Sec.DiseqcBurst | lib/libdvbv5/dvb-fe.c:841-854 | mini command B is sent exactly for a non-zero flag, A otherwise; the return code is -1 when the call fails and 0 when it succeeds |
| Sec.SecCallsDetermineRequest | lib/libdvbv5/dvb-fe.c:797-854 | the voltage, high-voltage and burst calls are one-to-one on the normalised request: two requests give the same call exactly when they agree as booleans, with `v18` mattering only when the voltage is on |
| Sec.DiseqcCmd | lib/libdvbv5/dvb-fe.c:856-882 | a command longer than 6 bytes is refused with `-EINVAL` before any call; otherwise it is sent as it is, and the return code is -1 when the call fails and 0 when it succeeds |
| Sec.ClampReplyLen | lib/libdvbv5/dvb-fe.c:890-891 | the requested reply length is clamped to at most 4 and otherwise kept |
| Sec.DiseqcReply | lib/libdvbv5/dvb-fe.c:884-909 | the call is issued with the clamped length; as written the length handed back is the clamped request and no device payload reaches the caller; the return code is -1 when the call fails and 0 when it succeeds |
| Sec.DiseqcReplyFixed | lib/libdvbv5/dvb-fe.c:884-909 | with the block passed by address, success hands back the device's bytes, never more than the clamped request, with return code 0; a failed call gives -1 and leaves the clamped length |
| Sec.DiseqcReplyIgnoresDevice | lib/libdvbv5/dvb-fe.c:899-907 | as written, the result does not depend on the device's answer; a one-byte answer to a four-byte request still reports four |

## Left out

- Device node opening, allocation, `close` and freeing are not modelled. `Open` starts once the node is open, and `CloseCalls` gives only the calls `dvb_fe_close` issues.
- Logging, verbose output, `dvb_fe_prt_parms` and the human-readable name tables are not modelled, because they affect no state or return value.
- The contents of the per-system command tables and the bandwidth table are parameters. They live in headers that are not part of this model.
- `dvb_sat_set_parms` and `dvb_sat_get_parms` are not part of this model. `Parms.Lnb` stands for their effect on the frequency entry. The DiSEqC traffic the set helper sends is not in the trace.
- LegacySetGetRoundTrip: on a satellite system the round trip is stated only for an LNB whose get-side conversion undoes the set side on the stored frequency and whose helper returns 0. The helpers are outside this model, so nothing else about them can be promised. LegacySetGetRoundTripFixed makes the same assumption.
- Frontend.Open: the enumeration reply's payload is not stored into the first entry's value, which is modelled as 0. `Open` returns no trace of the calls it issues.
- Parms.SetRequest: the `DTV_TUNE` entry's value is uninitialised stack memory in the source; it is modelled as 0.
- Sec.DiseqcReply: the reply timeout is carried in the trace only. The bytes the as-written code copies out of its own local block are not modelled.
- Frontend.Session: the systems array's fixed capacity is not modelled; the enumeration is taken as it comes.
- Only the Linux header's delivery-system and command numbers the code switches on are named. Their values are those of the Linux DVB frontend API. The property array holds `DTV_MAX_COMMAND` (44) entries.

## Findings

| source | as written | input that shows it | evidently intended | confidence | as-written member | corrected member |
|---|---|---|---|---|---|---|
| lib/libdvbv5/dvb-fe.c:518-530 | the modern read fills a local copy of the list that is never copied back | any modern get: the device's answer does not reach the store; on a satellite system each such get converts the stored frequency from the intermediate frequency once more, so two gets in a row drift (Parms.ModernSatGetDrifts) | the values read are stored back into the session | high, not executed | Parms.GetParmsDiscardsAnswer | Parms.GetParmsFixed |
| lib/libdvbv5/dvb-fe.c:716-718 | the uncorrected-block entry is stored with the SNR reading | reads of 7 blocks and SNR 300 leave 300 as the block count | the block count is stored | high, not executed | Stats.GetStatsDropsUcb | Stats.GetStatsFixed |
| lib/libdvbv5/dvb-fe.c:629-634 | the OFDM bandwidth search compares against the block's uninitialised field, and the stored Hz value goes into the local `bw`, so the block's bandwidth is never set | a legacy DVB-T set with 8 MHz stored; a device echoing code 2 reads back 6 MHz | the code of the stored Hz value is put into the block | high, not executed | LegacyMap.OfdmRoundTripBreaks | Parms.SetParmsFixed |
| lib/libdvbv5/dvb-fe.c:253-304 | the builder returns a positive `EINVAL`, which the `rc < 0` guard never catches | switching to a system without a table returns 0 with `EINVAL` entries in use | the switch is refused and the session is unchanged | high, not executed | Frontend.SetSysWithoutTable | Frontend.SetSysFixed |
| lib/libdvbv5/dvb-fe.c:601-654 | the satellite frequency is restored only on success | a failed satellite set followed by a retry converts the frequency twice | the caller's frequency, saved before the conversion, is put back on the failure paths too, as the restore comment at the `ret:` label intends | medium, not executed | Parms.SetParmsRetryConvertsTwice | Parms.SetParmsFixed |
| lib/libdvbv5/dvb-fe.c:899-907 | the reply block is passed to the device call by value, so its length and payload are the caller's, not the device's | a one-byte answer to a four-byte request reports four bytes | the device's length and bytes are handed back | high, not executed | Sec.DiseqcReplyIgnoresDevice | Sec.DiseqcReplyFixed |

=== FILE: catalog.dfy ===
/** The static, read-only catalogs the compatibility layer consults. Their
    contents live in headers that are not part of this model, so a catalog is
    a parameter of every operation that needs one; `WellFormed` states what
    the code silently relies on. */
module Catalog {
  import opened DvbTypes
  import Cmd

  /** Number of entries of the session's property array (`DTV_MAX_COMMAND`). */
  const Capacity: nat := 44

  datatype Catalog = Catalog(
    /** `dvb_v5_delivery_system`: for each system that has a table, its
        property commands in order, without the terminating 0. */
    sysProps: map<u32, seq<u32>>,
    /** `fe_bandwidth_name`: Hz value for each legacy bandwidth code. */
    bandwidthHz: seq<u32>,
    /** `DTV_MAX_USER_COMMAND`: last id of the user range. */
    maxUserCommand: u32)

  /** What the code assumes of the catalogs without checking it: a table's
      commands are non-zero (0 is its terminator), a rebuilt list plus the
      delivery-system entry and the `DTV_TUNE` slot fits the array, and the
      bandwidth table holds a 0 that stops the legacy search loop, at an
      index a 32-bit legacy code can hold. */
  predicate WellFormed(c: Catalog) {
    && (forall sys | sys in c.sysProps :: |c.sysProps[sys]| + 2 <= Capacity)
    && (forall sys | sys in c.sysProps :: 0 !in c.sysProps[sys])
    && 0 in c.bandwidthHz && |c.bandwidthHz| <= 0x1_0000_0000
    && Cmd.UserCommandStart <= c.maxUserCommand
  }

  /** Which name table `dvb_cmd_name` and `dvb_attr_names` consult for a command. */
  datatype NameSlot = StandardName(index: nat) | UserName(index: nat) | NoName

  /** Range dispatch of `dvb_cmd_name`/`dvb_attr_names`: every id names at most
      one slot, standard ids index the kernel table directly and user ids are
      rebased to the start of the user table. */
  function NameSlotOf(c: Catalog, cmd: int): (r: NameSlot)
    ensures r.StandardName? <==> 0 <= cmd < Cmd.UserCommandStart
    ensures r.UserName? <==> Cmd.UserCommandStart <= cmd <= c.maxUserCommand
    ensures r.StandardName? ==> r.index == cmd
    ensures r.UserName? ==> Cmd.UserCommandStart + r.index == cmd
  {
    if 0 <= cmd < Cmd.UserCommandStart then StandardName(cmd)
    else if 0 <= cmd <= c.maxUserCommand then UserName(cmd - Cmd.UserCommandStart)
    else NoName
  }

  /** The range dispatch is a one-to-one correspondence between the ids that
      have a name and the slots of the two tables: distinct ids never share a
      slot, and every slot of the kernel table (below 256) and of the user
      table (up to the last user command, rebased) is reached by its id. */
  lemma NameSlotOfBijective(c: Catalog, x: int, y: int, i: nat)
    requires Cmd.UserCommandStart <= c.maxUserCommand
    ensures NameSlotOf(c, x) != NoName && NameSlotOf(c, x) == NameSlotOf(c, y) ==> x == y
    ensures i < Cmd.UserCommandStart ==> NameSlotOf(c, i) == StandardName(i)
    ensures i <= c.maxUserCommand - Cmd.UserCommandStart
            ==> NameSlotOf(c, Cmd.UserCommandStart + i) == UserName(i)
  {
  }
}

=== FILE: classify.dfy ===
/** Classification of delivery systems: satellite or not, which legacy
    (DVBv3) frontend family emulates it, and which systems are the four
    canonical legacy ones. */
module Classify {
  import opened DvbTypes
  import DelSys

  /** `enum dvbv3_emulation_type`. */
  datatype Dvbv3Kind = KindQam | KindQpsk | KindOfdm | KindAtsc | KindUnknown

  /** `is_satellite`: the systems that drive an LNB. */
  predicate IsSatellite(sys: u32) {
    sys == DelSys.DvbS || sys == DelSys.DvbS2 || sys == DelSys.Turbo || sys == DelSys.IsdbS
  }

  /** `dvbv3_type`. */
  function Dvbv3Type(sys: u32): Dvbv3Kind {
    if sys == DelSys.DvbcAnnexA || sys == DelSys.DvbcAnnexC then KindQam
    else if sys == DelSys.DvbS || sys == DelSys.DvbS2 || sys == DelSys.Turbo
         || sys == DelSys.IsdbS || sys == DelSys.Dss then KindQpsk
    else if sys == DelSys.DvbT || sys == DelSys.DvbT2 || sys == DelSys.IsdbT
         || sys == DelSys.DmbTh then KindOfdm
    else if sys == DelSys.Atsc || sys == DelSys.DvbcAnnexB then KindAtsc
    else KindUnknown
  }

  /** `is_dvbv3_delsys`: the four systems the legacy API names directly. */
  predicate IsDvbv3Delsys(sys: u32) {
    sys == DelSys.DvbT || sys == DelSys.DvbcAnnexA || sys == DelSys.DvbS || sys == DelSys.Atsc
  }

  /** The canonical legacy system of each known family. */
  function Canonical(k: Dvbv3Kind): (r: u32)
    requires k != KindUnknown
  {
    match k
    case KindQam => DelSys.DvbcAnnexA
    case KindQpsk => DelSys.DvbS
    case KindOfdm => DelSys.DvbT
    case KindAtsc => DelSys.Atsc
  }

  /** The systems the legacy get and set paths have a field mapping for. */
  predicate LegacyMapped(sys: u32) {
    sys == DelSys.DvbS || sys == DelSys.DvbcAnnexA || sys == DelSys.Atsc
    || sys == DelSys.DvbcAnnexB || sys == DelSys.DvbT
  }

  /** Every satellite system is emulated by a QPSK frontend, and the only
      QPSK-family system that is not satellite is DSS. */
  lemma SatelliteIsQpsk(sys: u32)
    ensures IsSatellite(sys) <==> Dvbv3Type(sys) == KindQpsk && sys != DelSys.Dss
  {
  }

  /** A system is one of the four legacy ones exactly when it is the
      canonical representative of its own (known) family. */
  lemma Dvbv3DelsysIsCanonical(sys: u32)
    ensures IsDvbv3Delsys(sys) <==> Dvbv3Type(sys) != KindUnknown && sys == Canonical(Dvbv3Type(sys))
  {
  }

  /** Every system with a legacy field mapping belongs to a known family. */
  lemma LegacyMappedIsKnown(sys: u32)
    ensures LegacyMapped(sys) ==> Dvbv3Type(sys) != KindUnknown
  {
  }
}

=== FILE: compat.dfy ===
/** `dvb_set_compat_delivery_system`: activate a wanted delivery system,
    accepting it even when the device does not list it, as long as the device
    lists a non-legacy system of the same legacy family. */
module Compat {
  import opened DvbTypes
  import DelSys
  import Cmd
  import opened Catalog
  import opened Classify
  import opened PropStore
  import opened Device
  import opened Frontend

  /** A supported system that can stand in for a wanted one of kind `kind`:
      same legacy family, and not itself one of the four legacy systems. */
  predicate Fallback(sys: u32, kind: Dvbv3Kind) {
    Dvbv3Type(sys) == kind && !IsDvbv3Delsys(sys)
  }

  /** The scan at lines 372-376: the last fallback among `systems`, or `acc`
      (the scan starts it at `SYS_UNDEFINED`) when there is none. */
  function LastFallback(systems: seq<u32>, kind: Dvbv3Kind, acc: u32): (r: u32)
    ensures r == acc || (r in systems && Fallback(r, kind))
    ensures (forall i | 0 <= i < |systems| :: !Fallback(systems[i], kind)) ==> r == acc
    ensures (exists i | 0 <= i < |systems| :: Fallback(systems[i], kind)) ==> r in systems && Fallback(r, kind)
    decreases |systems|
  {
    if systems == [] then acc
    else
      var rest := systems[1..];
      assert forall j | 1 <= j < |systems| :: systems[j] == rest[j - 1];
      LastFallback(rest, kind, if Fallback(systems[0], kind) then systems[0] else acc)
  }

  /** The scan keeps the LAST fallback: a fallback followed by none picks it. */
  lemma {:induction false} LastFallbackIsLast(systems: seq<u32>, kind: Dvbv3Kind, acc: u32, i: nat)
    requires i < |systems| && Fallback(systems[i], kind)
    requires forall j | i < j < |systems| :: !Fallback(systems[j], kind)
    ensures LastFallback(systems, kind, acc) == systems[i]
    decreases |systems|
  {
    var rest := systems[1..];
    var acc' := if Fallback(systems[0], kind) then systems[0] else acc;
    if i == 0 {
      assert forall j | 0 <= j < |rest| :: !Fallback(rest[j], kind) by {
        forall j | 0 <= j < |rest| ensures !Fallback(rest[j], kind) {
          assert rest[j] == systems[j + 1];
        }
      }
    } else {
      forall j | i - 1 < j < |rest| ensures !Fallback(rest[j], kind) {
        assert rest[j] == systems[j + 1];
      }
      LastFallbackIsLast(rest, kind, acc', i - 1);
    }
  }

  /** Lines 385-403: the parameters that put ISDB-T into automatic mode. */
  const IsdbtDefaults: seq<Prop> := [
    Prop(Cmd.BandwidthHz, 6000000),
    Prop(Cmd.IsdbtPartialReception, 0),
    Prop(Cmd.IsdbtSoundBroadcasting, 0),
    Prop(Cmd.IsdbtSbSubchannelId, 0),
    Prop(Cmd.IsdbtSbSegmentIdx, 0),
    Prop(Cmd.IsdbtSbSegmentCount, 0),
    Prop(Cmd.IsdbtLayerEnabled, 7),
    Prop(Cmd.IsdbtLayerAFec, Cmd.FecAuto),
    Prop(Cmd.IsdbtLayerBFec, Cmd.FecAuto),
    Prop(Cmd.IsdbtLayerCFec, Cmd.FecAuto),
    Prop(Cmd.IsdbtLayerAModulation, Cmd.QamAuto),
    Prop(Cmd.IsdbtLayerBModulation, Cmd.QamAuto),
    Prop(Cmd.IsdbtLayerCModulation, Cmd.QamAuto),
    Prop(Cmd.IsdbtLayerASegmentCount, 0),
    Prop(Cmd.IsdbtLayerATimeInterleaving, 0),
    Prop(Cmd.IsdbtLayerBSegmentCount, 0),
    Prop(Cmd.IsdbtLayerBTimeInterleaving, 0),
    Prop(Cmd.IsdbtLayerCSegmentCount, 0),
    Prop(Cmd.IsdbtLayerCTimeInterleaving, 0)
  ]

  /** Store the ISDB-T defaults when the wanted system is ISDB-T. */
  function Seed(s: Session, desired: u32): (r: Session)
    requires Valid(s)
    ensures Valid(r) && r == s.(props := r.props) && SameCmds(s.props, r.props)
    ensures desired != DelSys.IsdbT ==> r == s
  {
    if desired == DelSys.IsdbT then s.(props := StoreAll(s.props, s.nProps, IsdbtDefaults)) else s
  }

  /** `dvb_set_compat_delivery_system`, with `reply` the device's answer to
      the switch it may attempt. Returns 0 or -1.
      QUIRKS: the switch's own return code is ignored on both paths, so 0 is
      returned even when the switch was refused; the fallback path activates
      the WANTED system, not the fallback it found; and a wanted system of
      unknown family still matches a listed system of unknown family. */
  function SetCompat(cat: Catalog, s: Session, desired: u32, reply: Ioctl): (r: Step)
    requires WellFormed(cat) && Valid(s)
    ensures Valid(r.s) && (Parked(s) ==> Parked(r.s))
    ensures r.s.systems == s.systems && r.s.legacyFe == s.legacyFe && r.s.stats == s.stats
    ensures r.rc == 0 || r.rc == -1
    ensures desired in s.systems ==> r.rc == 0 && r.s == SetSys(cat, s, desired, reply).s
    ensures r.rc == -1 <==>
              desired !in s.systems && LastFallback(s.systems, Dvbv3Type(desired), DelSys.Undefined) == DelSys.Undefined
    ensures DelSys.Undefined !in s.systems ==>
              (r.rc == -1 <==> desired !in s.systems
                               && forall i | 0 <= i < |s.systems| :: !Fallback(s.systems[i], Dvbv3Type(desired)))
    ensures r.rc == -1 ==> r.s == s && r.calls == []
    ensures r.rc == 0 && (desired == s.currentSys || (!s.legacyFe && reply.Done?)) ==> r.s.currentSys == desired
    ensures s.legacyFe ==> r.s.currentSys == s.currentSys
    ensures r.rc == 0 ==> r.calls == SetSys(cat, s, desired, reply).calls
    ensures r.rc == 0 && desired !in s.systems ==> r.s == Seed(SetSys(cat, s, desired, reply).s, desired)
  {
    if desired in s.systems then
      var sw := SetSys(cat, s, desired, reply);
      Step(sw.s, 0, sw.calls)
    else
      var delsys := LastFallback(s.systems, Dvbv3Type(desired), DelSys.Undefined);
      if delsys == DelSys.Undefined then Step(s, -1, [])
      else
        var sw := SetSys(cat, s, desired, reply);
        Step(Seed(sw.s, desired), 0, sw.calls)
  }

  /** Selecting the same wanted system twice, with the device answering the
      same way, leaves the session as selecting it once. */
  lemma SetCompatIdempotent(cat: Catalog, s: Session, desired: u32, reply: Ioctl)
    requires WellFormed(cat) && Valid(s)
    ensures SetCompat(cat, SetCompat(cat, s, desired, reply).s, desired, reply).s
            == SetCompat(cat, s, desired, reply).s
  {
    var s1 := SetCompat(cat, s, desired, reply).s;
    if desired in s.systems {
      SetSysIdempotent(cat, s, desired, reply);
    } else if LastFallback(s.systems, Dvbv3Type(desired), DelSys.Undefined) != DelSys.Undefined {
      var t := SetSys(cat, s, desired, reply).s;
      assert s1 == Seed(t, desired);
      if desired != DelSys.IsdbT {
        SetSysIdempotent(cat, s, desired, reply);
      } else if t.currentSys != desired {
        // The switch was refused; it is refused again and the defaults land
        // on the same entries.
        assert t == s;
        assert SetSys(cat, s1, desired, reply).s == s1;
        StoreAllIdempotent(s.props, s.nProps, IsdbtDefaults);
      } else if desired in cat.sysProps {
        // The second switch rebuilds the list, wiping the defaults, and the
        // defaults are stored again.
        assert t == Activate(cat, s, desired);
        forall k | |cat.sysProps[desired]| < k < Capacity
          ensures s1.props[k] == t.props[k]
        {
          StoreAllBeyond(t.props, t.nProps, IsdbtDefaults, k);
        }
        ActivateForgetsInUse(cat, t, s1.props, desired);
        ActivateIdempotent(cat, s, desired);
        assert SetSys(cat, s1, desired, reply).s == t;
      } else {
        // No table: the in-use count stays `EINVAL` and the stores repeat.
        assert SetSys(cat, s1, desired, reply).s == s1;
        StoreAllIdempotent(t.props, t.nProps, IsdbtDefaults);
      }
    }
  }

  /** The ISDB-T defaults name each command once. */
  lemma IsdbtDefaultsDistinct()
    ensures forall i, j | 0 <= i < j < |IsdbtDefaults| :: IsdbtDefaults[i].cmd != IsdbtDefaults[j].cmd
  {
  }

  /** After a successful fallback to ISDB-T, every default whose command is in
      the ISDB-T list reads back its default value; in particular the
      bandwidth reads back 6 MHz and all three layers are enabled. */
  lemma IsdbtSeeded(cat: Catalog, s: Session, reply: Ioctl, k: nat)
    requires WellFormed(cat) && Valid(s)
    requires DelSys.IsdbT !in s.systems
    requires LastFallback(s.systems, KindOfdm, DelSys.Undefined) != DelSys.Undefined
    requires s.currentSys == DelSys.IsdbT || (!s.legacyFe && reply.Done?)
    requires DelSys.IsdbT in cat.sysProps && k < |IsdbtDefaults|
    requires IsdbtDefaults[k].cmd in cat.sysProps[DelSys.IsdbT]
    ensures var r := SetCompat(cat, s, DelSys.IsdbT, reply);
            && r.rc == 0 && r.s.currentSys == DelSys.IsdbT
            && RetrieveParm(r.s, IsdbtDefaults[k].cmd) == Some(IsdbtDefaults[k].data)
  {
    var sw := SetSys(cat, s, DelSys.IsdbT, reply);
    var t := sw.s;
    assert sw.rc == 0 && t.currentSys == DelSys.IsdbT && Activated(cat, t, DelSys.IsdbT);
    assert SetCompat(cat, s, DelSys.IsdbT, reply).s == Seed(t, DelSys.IsdbT);
    var tbl := cat.sysProps[DelSys.IsdbT];
    var c := IsdbtDefaults[k].cmd;
    var i :| 0 <= i < |tbl| && tbl[i] == c;
    ActivatedRetrieve(cat, t, DelSys.IsdbT, i);
    forall j | k < j < |IsdbtDefaults| ensures IsdbtDefaults[j].cmd != c {
      IsdbtDefaultsDistinct();
    }
    LastValueAt(IsdbtDefaults, k, c);
    StoreAllRetrieve(t.props, t.nProps, IsdbtDefaults, c);
  }

  /** ISDB-T wanted on a device listing only DVB-T: there is no fallback
      (DVB-T is a legacy system), so the call fails and nothing changes. */
  lemma IsdbtOnDvbtOnly(cat: Catalog, s: Session, reply: Ioctl)
    requires WellFormed(cat) && Valid(s) && s.systems == [DelSys.DvbT]
    ensures SetCompat(cat, s, DelSys.IsdbT, reply) == Step(s, -1, [])
  {
  }

  /** ISDB-T wanted on a modern device listing DVB-T and DVB-T2: DVB-T2 is
      the fallback, the switch to ISDB-T succeeds and the bandwidth reads back
      6 MHz (when the ISDB-T list has a bandwidth entry). */
  lemma IsdbtOnDvbt2(cat: Catalog, s: Session)
    requires WellFormed(cat) && Valid(s) && !s.legacyFe
    requires s.systems == [DelSys.DvbT, DelSys.DvbT2]
    requires DelSys.IsdbT in cat.sysProps && Cmd.BandwidthHz in cat.sysProps[DelSys.IsdbT]
    ensures var r := SetCompat(cat, s, DelSys.IsdbT, Done);
            && r.rc == 0 && r.s.currentSys == DelSys.IsdbT
            && RetrieveParm(r.s, Cmd.BandwidthHz) == Some(6000000)
  {
    LastFallbackIsLast(s.systems, KindOfdm, DelSys.Undefined, 1);
    IsdbtSeeded(cat, s, Done, 0);
  }
}

=== FILE: device.dfy ===
/** The device as the compatibility layer sees it: the calls it issues,
    recorded in a trace, and the replies it receives, given as inputs. */
module Device {
  import opened DvbTypes

  /** A positive errno value. */
  type Errno = e: int | e > 0 witness 1

  /** Outcome of one control call: success, or failure with its errno. */
  datatype Ioctl = Done | Failed(errno: Errno)

  /** `fe_sec_voltage_t`. */
  datatype Voltage = Voltage13 | Voltage18 | VoltageOff

  /** `fe_sec_mini_cmd_t`. */
  datatype MiniCmd = MiniA | MiniB

  /** The seven 32-bit words of the union in `struct dvb_frontend_parameters`.
      Each family's view names a prefix of them: QPSK (symbol rate, FEC),
      QAM (symbol rate, FEC, modulation), VSB (modulation) and OFDM
      (bandwidth, HP and LP code rates, constellation, transmission mode,
      guard interval, hierarchy). */
  type Words = w: seq<u32> | |w| == 7 witness [0, 0, 0, 0, 0, 0, 0]

  /** A legacy parameter block as the device reports it. */
  datatype V3Reply = V3Reply(frequency: u32, inversion: u32, u: Words)

  /** A legacy parameter block as the library fills it before a legacy tune;
      `None` marks a field the library left uninitialised. */
  datatype V3Request = V3Request(frequency: Option<u32>, inversion: Option<u32>, u: seq<Option<u32>>)

  /** The request before any field is filled in. */
  const Uninitialised: V3Request := V3Request(None, None, [None, None, None, None, None, None, None])

  /** One control call issued to the frontend device. */
  datatype Call =
    | SetDeliverySystem(sys: u32)
    | GetProperties(cmds: seq<u32>)
    | SetProperties(props: seq<Prop>)
    | GetFrontend
    | ReadEvent
    | SetFrontend(request: V3Request)
    | ReadStatus
    | ReadBer
    | ReadSignalStrength
    | ReadSnr
    | ReadUncorrectedBlocks
    | SetVoltage(voltage: Voltage)
    | SetTone(tone: int)
    | EnableHighLnbVoltage(on: int)
    | SendBurst(mini: MiniCmd)
    | SendMasterCmd(msg: seq<u8>)
    | RecvSlaveReply(len: nat, timeout: int)
}

=== FILE: event.dfy ===
/** `dvb_fe_get_event`: refresh a session after the frontend signalled a
    change. */
module Event {
  import opened DvbTypes
  import Cmd
  import opened Catalog
  import opened Classify
  import opened Device
  import opened Frontend
  import opened Parms
  import opened Stats

  /** `dvb_fe_get_event`. A modern session re-reads its parameters, ignoring
      that read's return code, then its statistics. A legacy session waits for
      one event (`event` is its status, `None` if the call failed) and stores
      the status; the retrieves into the event's own parameter block that
      follow fill a local that is then dropped, so they change nothing. A
      family the legacy mapping does not know then returns `-EINVAL`;
      otherwise the statistics are read. The other inputs are those of
      `GetParms` and `GetStats`. */
  function GetEvent(cat: Catalog, lnb: Lnb, s: Session, reply: Ioctl, answer: u32 -> u32,
                    frontend: Option<V3Reply>, event: Option<u32>, rd: Readings): (r: Step)
    requires WellFormed(cat) && Valid(s)
    ensures Valid(r.s)
    ensures !s.legacyFe ==>
              var p := GetParms(cat, lnb, s, reply, answer, frontend);
              && r.s == p.s.(stats := r.s.stats)
              && r.calls == p.calls + StatReads
              && r.rc == AsInt32(StatusOf(rd))
              && RetrieveStats(r.s, Cmd.Status) == Some(StatusOf(rd))
    ensures s.legacyFe ==> r.s == s.(stats := r.s.stats)
    ensures s.legacyFe && event.None? ==> r == Step(s, -1, [ReadEvent])
    ensures s.legacyFe && event.Some? && !LegacyMapped(s.currentSys) ==>
              r.rc == -EINVAL && r.calls == [ReadEvent] && RetrieveStats(r.s, Cmd.Status) == event
    ensures s.legacyFe && event.Some? && LegacyMapped(s.currentSys) ==>
              && r.rc == AsInt32(StatusOf(rd))
              && r.calls == [ReadEvent] + StatReads
              && RetrieveStats(r.s, Cmd.Status) == Some(StatusOf(rd))
  {
    if !s.legacyFe then
      var p := GetParms(cat, lnb, s, reply, answer, frontend);
      var st := GetStats(p.s, rd);
      Step(st.s, st.rc, p.calls + st.calls)
    else if event.None? then Step(s, -1, [ReadEvent])
    else
      var s1 := StoreStats(s, Cmd.Status, event.value).s;
      if !LegacyMapped(s.currentSys) then Step(s1, -EINVAL, [ReadEvent])
      else
        var st := GetStats(s1, rd);
        Step(st.s, st.rc, [ReadEvent] + st.calls)
  }

  /** On a legacy session an event never touches the property store, and
      on a session parked on a mapped system it always ends with the
      statistics read. */
  lemma LegacyEventKeepsStore(cat: Catalog, lnb: Lnb, s: Session, reply: Ioctl, answer: u32 -> u32,
                              frontend: Option<V3Reply>, status: u32, rd: Readings)
    requires WellFormed(cat) && Valid(s) && Parked(s) && s.legacyFe
    ensures var r := GetEvent(cat, lnb, s, reply, answer, frontend, Some(status), rd);
            && r.s.props == s.props && r.s.nProps == s.nProps
            && r.rc == AsInt32(StatusOf(rd))
  {
  }
}

=== FILE: frontend.dfy ===
/** The frontend session (`struct dvb_v5_fe_parms`) and the operations that
    create it, switch its delivery system and read and write its property
    store: `dvb_fe_open2`, `dvb_fe_close`, `dvb_add_parms_for_sys`,
    `dvb_set_sys`, `dvb_fe_retrieve_parm` and `dvb_fe_store_parm`. */
module Frontend {
  import opened DvbTypes
  import DelSys
  import Cmd
  import opened Catalog
  import opened Classify
  import opened PropStore
  import opened Device

  /** The statistics commands, in the order the session installs them. */
  const StatCmds: seq<u32> := [Cmd.Status, Cmd.Ber, Cmd.SignalStrength, Cmd.Snr, Cmd.UncorrectedBlocks]

  datatype Session = Session(
    /** `DTV_API_VERSION` as the device reported it (0x300 when it did not answer). */
    version: u32,
    /** Whether every get and set goes through the legacy calls. */
    legacyFe: bool,
    /** Supported delivery systems, in the order found. */
    systems: seq<u32>,
    currentSys: u32,
    /** The whole `dvb_prop` array; only the first `nProps` entries are in use. */
    props: seq<Prop>,
    nProps: nat,
    /** The five statistics entries. */
    stats: seq<Prop>)

  /** The invariant every session keeps: array sizes, room for the
      `DTV_TUNE` entry after the entries in use, the statistics commands in
      place, and at least one supported system. */
  predicate Valid(s: Session) {
    && |s.props| == Capacity
    && s.nProps < Capacity
    && |s.stats| == |StatCmds|
    && (forall k | 0 <= k < |StatCmds| :: s.stats[k].cmd == StatCmds[k])
    && |s.systems| > 0
  }

  /** A legacy session sits on a system the legacy field mapping knows. The
      operations keep this, which is why the legacy get and set paths never
      reach their `-EINVAL` default on a session opened by `Open`. */
  predicate Parked(s: Session) {
    s.legacyFe ==> LegacyMapped(s.currentSys)
  }

  /** A transition: the new session, the C return code, the device calls issued. */
  datatype Step = Step(s: Session, rc: int, calls: seq<Call>)

  /** The store holds exactly the list built for `sys`: the table's commands
      with value 0, then the delivery system itself. Without a table the
      count of entries in use is `EINVAL` (see `AddParmsForSys`). */
  ghost predicate Activated(cat: Catalog, s: Session, sys: u32)
    requires |s.props| == Capacity
  {
    if sys in cat.sysProps then
      var t := cat.sysProps[sys];
      && |t| + 1 <= Capacity
      && s.nProps == |t| + 1
      && (forall k | 0 <= k < |t| :: s.props[k] == Prop(t[k], 0))
      && s.props[|t|] == Prop(Cmd.DeliverySystem, sys)
    else s.nProps == EINVAL
  }

  /** `dvb_add_parms_for_sys`: write the table's commands with value 0 and
      then the delivery-system entry at the head of the array, and return the
      number of entries written. QUIRK: a system without a table yields the
      POSITIVE `EINVAL` and an untouched array, so a caller testing `rc < 0`
      takes it for a count. */
  function AddParmsForSys(cat: Catalog, a: seq<Prop>, sys: u32): (r: (seq<Prop>, int))
    requires WellFormed(cat) && |a| == Capacity
    ensures |r.0| == |a|
    ensures sys !in cat.sysProps ==> r.0 == a && r.1 == EINVAL
    ensures sys in cat.sysProps ==>
              var t := cat.sysProps[sys];
              && r.1 == |t| + 1
              && (forall k | 0 <= k < |t| :: r.0[k] == Prop(t[k], 0))
              && r.0[|t|] == Prop(Cmd.DeliverySystem, sys)
              && (forall k | |t| < k < |a| :: r.0[k] == a[k])
  {
    if sys !in cat.sysProps then (a, EINVAL)
    else
      var t := cat.sysProps[sys];
      (seq(|a|, k requires 0 <= k < |a| =>
         if k < |t| then Prop(t[k], 0)
         else if k == |t| then Prop(Cmd.DeliverySystem, sys)
         else a[k]),
       |t| + 1)
  }

  /** Lines 300-307 of `dvb_set_sys`: rebuild the store for `sys` and make it
      current. The `rc < 0` guard there never fires, because the builder's
      error is the positive `EINVAL`; so `sys` always becomes current and, when
      it has no table, the in-use count becomes `EINVAL` over the old array. */
  function Activate(cat: Catalog, s: Session, sys: u32): (r: Session)
    requires WellFormed(cat) && |s.props| == Capacity
    ensures r == s.(currentSys := sys, props := r.props, nProps := r.nProps)
    ensures |r.props| == Capacity && r.nProps < Capacity
    ensures Activated(cat, r, sys)
    ensures sys !in cat.sysProps ==> r.props == s.props
  {
    var built := AddParmsForSys(cat, s.props, sys);
    s.(currentSys := sys, props := built.0, nProps := built.1 as nat)
  }

  /** Rebuilding twice for the same system is the same as rebuilding once. */
  lemma ActivateIdempotent(cat: Catalog, s: Session, sys: u32)
    requires WellFormed(cat) && |s.props| == Capacity
    ensures Activate(cat, Activate(cat, s, sys), sys) == Activate(cat, s, sys)
  {
    var once := Activate(cat, s, sys);
    var twice := Activate(cat, once, sys);
    if sys in cat.sysProps {
      assert twice.props == once.props;
    }
  }

  /** The rebuild only keeps entries past the delivery-system entry, so two
      arrays that agree there rebuild to the same session. */
  lemma ActivateForgetsInUse(cat: Catalog, s: Session, b: seq<Prop>, sys: u32)
    requires WellFormed(cat) && |s.props| == Capacity && |b| == Capacity
    requires sys in cat.sysProps
    requires forall k | |cat.sysProps[sys]| < k < Capacity :: b[k] == s.props[k]
    ensures Activate(cat, s.(props := b), sys) == Activate(cat, s, sys)
  {
    assert Activate(cat, s.(props := b), sys).props == Activate(cat, s, sys).props;
  }

  /** The delivery-system switch, `dvb_set_sys`, with `reply` the outcome of
      the set-property call it may issue.
      QUIRK: the LNB is powered off before the legacy rejection, so a
      rejected switch away from satellite still switches the LNB off. */
  function SetSys(cat: Catalog, s: Session, sys: u32, reply: Ioctl): (r: Step)
    requires WellFormed(cat) && Valid(s)
    ensures Valid(r.s) && (Parked(s) ==> Parked(r.s))
    ensures r.s.systems == s.systems && r.s.legacyFe == s.legacyFe
    ensures r.s.version == s.version && r.s.stats == s.stats
    ensures sys == s.currentSys ==> r.calls == [] && r.rc == 0
    ensures sys != s.currentSys && s.legacyFe ==> r.rc == EINVAL && r.s == s
    ensures (|r.calls| > 0 && r.calls[0] == SetVoltage(VoltageOff))
            <==> sys != s.currentSys && IsSatellite(s.currentSys) && !IsSatellite(sys)
    ensures forall k | 0 <= k < |r.calls| :: r.calls[k].SetVoltage? ==> k == 0
    ensures (exists k | 0 <= k < |r.calls| :: r.calls[k].SetProperties?)
            <==> sys != s.currentSys && !s.legacyFe
    ensures r.rc == 0 ==> r.s.currentSys == sys && Activated(cat, r.s, sys)
    ensures r.rc != 0 ==> r.s == s
    ensures r.rc != 0 <==> sys != s.currentSys && (s.legacyFe || reply.Failed?)
    ensures sys != s.currentSys && s.legacyFe ==>
              r.calls == if IsSatellite(s.currentSys) && !IsSatellite(sys) then [SetVoltage(VoltageOff)] else []
    ensures sys != s.currentSys && !s.legacyFe ==>
              r.calls == (if IsSatellite(s.currentSys) && !IsSatellite(sys) then [SetVoltage(VoltageOff)] else [])
                         + [SetProperties([Prop(Cmd.DeliverySystem, sys)])]
    ensures sys != s.currentSys && !s.legacyFe && reply.Failed? ==> r.rc == reply.errno
  {
    if sys != s.currentSys then
      // The voltage call's own outcome is ignored.
      var off := if IsSatellite(s.currentSys) && !IsSatellite(sys) then [SetVoltage(VoltageOff)] else [];
      if s.legacyFe then
        // The legacy calls cannot change the standard at run time.
        Step(s, EINVAL, off)
      else
        var calls := off + [SetProperties([Prop(Cmd.DeliverySystem, sys)])];
        assert calls[|off|].SetProperties?;
        if reply.Failed? then Step(s, reply.errno, calls)
        else Step(Activate(cat, s, sys), 0, calls)
    else Step(Activate(cat, s, sys), 0, [])
  }

  /** Switching twice to the same system, with the device answering the same
      way, leaves the session as switching once. */
  lemma SetSysIdempotent(cat: Catalog, s: Session, sys: u32, reply: Ioctl)
    requires WellFormed(cat) && Valid(s)
    ensures SetSys(cat, SetSys(cat, s, sys, reply).s, sys, reply).s == SetSys(cat, s, sys, reply).s
  {
    ActivateIdempotent(cat, s, sys);
  }

  /** `dvb_set_sys` as intended: a system without a property table is
      refused with `EINVAL` after the device call, leaving the session as it
      was, instead of being made current over an in-use count of `EINVAL`.
      Everything else is as written. */
  function SetSysFixed(cat: Catalog, s: Session, sys: u32, reply: Ioctl): (r: Step)
    requires WellFormed(cat) && Valid(s)
    ensures Valid(r.s) && (Parked(s) ==> Parked(r.s))
    ensures r.calls == SetSys(cat, s, sys, reply).calls
    ensures sys in cat.sysProps ==> r == SetSys(cat, s, sys, reply)
    ensures sys !in cat.sysProps ==> r.s == s && r.rc != 0
    ensures r.rc == 0 ==> r.s.currentSys == sys && r.s.nProps == |cat.sysProps[sys]| + 1
  {
    var w := SetSys(cat, s, sys, reply);
    if w.rc == 0 && sys !in cat.sysProps then Step(s, EINVAL, w.calls) else w
  }

  /** As written, switching to a system without a table succeeds and leaves
      `EINVAL` entries in use; the intended switch refuses it. */
  lemma SetSysWithoutTable(cat: Catalog, s: Session, sys: u32, reply: Ioctl)
    requires WellFormed(cat) && Valid(s) && sys !in cat.sysProps
    requires sys == s.currentSys || (!s.legacyFe && reply.Done?)
    ensures var r := SetSys(cat, s, sys, reply);
            r.rc == 0 && r.s.currentSys == sys && r.s.nProps == EINVAL
    ensures SetSysFixed(cat, s, sys, reply) == Step(s, EINVAL, SetSys(cat, s, sys, reply).calls)
  {
  }

  /** Right after a successful switch, every table command reads back 0 and
      the delivery-system entry reads back the system (unless the table
      itself lists that command first). */
  lemma ActivatedRetrieve(cat: Catalog, s: Session, sys: u32, k: nat)
    requires |s.props| == Capacity && sys in cat.sysProps && Activated(cat, s, sys)
    requires k < |cat.sysProps[sys]|
    ensures Retrieve(s.props, s.nProps, cat.sysProps[sys][k]) == Some(0)
    ensures Cmd.DeliverySystem !in cat.sysProps[sys] ==>
              Retrieve(s.props, s.nProps, Cmd.DeliverySystem) == Some(sys)
  {
    var t := cat.sysProps[sys];
    assert s.props[k].cmd == t[k];
    var v := Retrieve(s.props, s.nProps, t[k]).value;
    var j :| 0 <= j < s.nProps && s.props[j] == Prop(t[k], v)
             && forall i | 0 <= i < j :: s.props[i].cmd != t[k];
    assert j <= k;
    if Cmd.DeliverySystem !in t {
      forall m | 0 <= m < |t| ensures s.props[m].cmd != Cmd.DeliverySystem {
        assert s.props[m].cmd == t[m];
      }
      RetrieveAt(s.props, s.nProps, Cmd.DeliverySystem, |t|);
    }
  }

  /** `dvb_fe_retrieve_parm` on a session. */
  function RetrieveParm(s: Session, cmd: u32): (r: Option<u32>)
    requires Valid(s)
    ensures r.None? <==> forall j | 0 <= j < s.nProps :: s.props[j].cmd != cmd
    ensures r.Some? ==> exists j | 0 <= j < s.nProps :: Find(s.props, s.nProps, cmd) == Some(j)
                                                        && r.value == s.props[j].data
  {
    Retrieve(s.props, s.nProps, cmd)
  }

  /** `dvb_fe_store_parm` on a session: only the value of the first in-use
      entry for `cmd` may change; commands, the in-use count and everything
      else stay as they were, and an absent command gives `EINVAL` and no change. */
  function StoreParm(s: Session, cmd: u32, v: u32): (r: Step)
    requires Valid(s)
    ensures Valid(r.s) && r.calls == []
    ensures r.s == s.(props := r.s.props)
    ensures SameCmds(s.props, r.s.props)
    ensures r.rc == EINVAL <==> RetrieveParm(s, cmd).None?
    ensures r.rc == EINVAL ==> r.s == s
    ensures r.rc != EINVAL ==> r.rc == 0 && RetrieveParm(r.s, cmd) == Some(v)
    ensures r.rc == 0 ==> exists i | 0 <= i < s.nProps :: Find(s.props, s.nProps, cmd) == Some(i)
                                                         && r.s.props == s.props[i := Prop(cmd, v)]
    ensures forall c | c != cmd :: RetrieveParm(r.s, c) == RetrieveParm(s, c)
  {
    var stored := Store(s.props, s.nProps, cmd, v);
    var r := Step(s.(props := stored.0), stored.1, []);
    StoreRetrieve(s.props, s.nProps, cmd, v, cmd);
    forall c | c != cmd
      ensures RetrieveParm(r.s, c) == RetrieveParm(s, c)
    {
      StoreRetrieve(s.props, s.nProps, cmd, v, c);
    }
    r
  }

  /** `fe_type_t` of the legacy device information. */
  datatype FeType = FeQpsk | FeQam | FeOfdm | FeAtsc | FeOther

  /** What the legacy information call reports: the family and the capability bits. */
  datatype FeInfo = FeInfo(feType: FeType, caps: bv32)

  /** What the version probe reports: `DTV_API_VERSION` and `DTV_DELIVERY_SYSTEM`. */
  datatype VersionReply = VersionReply(version: u32, deliverySystem: u32)

  /** `fe_caps_t` bits the derivation reads. */
  const CanQam64: bv32 := 0x2000
  const CanQam256: bv32 := 0x8000
  const CanQamAuto: bv32 := 0x1_0000
  const Can8Vsb: bv32 := 0x20_0000
  const Can16Vsb: bv32 := 0x40_0000
  const CanTurboFec: bv32 := 0x800_0000
  const Can2gModulation: bv32 := 0x1000_0000

  predicate HasCap(info: FeInfo, bits: bv32) {
    info.caps & bits != 0
  }

  /** The version assumed when the probe fails, and the one assumed reported. */
  function ProbedVersion(probe: Option<VersionReply>): u32 {
    if probe.Some? then probe.value.version else 0x300
  }

  function ProbedSystem(probe: Option<VersionReply>): u32 {
    if probe.Some? then probe.value.deliverySystem else DelSys.Undefined
  }

  /** Lines 113-116 of `dvb_fe_open2`: an API older than 5.0 forces legacy
      calls, and legacy calls are used when forced or when the API is older
      than 5.5; the two rules collapse to one. */
  function UsesLegacy(version: u32, forceLegacy: bool): (r: bool)
    ensures r <==> forceLegacy || version < 0x505
    ensures version < 0x500 ==> r
  {
    var force := forceLegacy || version < 0x500;
    force || version < 0x505
  }

  /** The legacy family that emulates each kind of legacy frontend. */
  function KindOf(t: FeType): Dvbv3Kind {
    match t
    case FeQpsk => KindQpsk
    case FeQam => KindQam
    case FeOfdm => KindOfdm
    case FeAtsc => KindAtsc
    case FeOther => KindUnknown
  }

  /** Lines 118-148 of `dvb_fe_open2`: the supported systems of a legacy
      device, derived from its family and capabilities. Second-generation and
      turbo systems are added only when the API is at least 5.0. */
  function LegacySystems(info: FeInfo, version: u32): (r: seq<u32>)
    ensures |r| <= 3
    ensures forall i, j | 0 <= i < j < |r| :: r[i] != r[j]
    ensures forall k | 0 <= k < |r| :: Dvbv3Type(r[k]) == KindOf(info.feType)
    ensures r == [] <==> info.feType == FeOther
                         || (info.feType == FeAtsc && !HasCap(info, Can8Vsb | Can16Vsb)
                             && !HasCap(info, CanQam64 | CanQam256 | CanQamAuto))
    ensures r != [] && info.feType != FeAtsc ==> r[0] == Canonical(KindOf(info.feType))
    ensures version < 0x500 && info.feType != FeAtsc ==> |r| <= 1
    ensures DelSys.DvbS in r <==> info.feType == FeQpsk
    ensures DelSys.DvbS2 in r <==> info.feType == FeQpsk && version >= 0x500 && HasCap(info, Can2gModulation)
    ensures DelSys.Turbo in r <==> info.feType == FeQpsk && version >= 0x500 && HasCap(info, CanTurboFec)
    ensures DelSys.DvbcAnnexA in r <==> info.feType == FeQam
    ensures info.feType == FeQam ==> r == [DelSys.DvbcAnnexA]
    ensures DelSys.DvbT in r <==> info.feType == FeOfdm
    ensures DelSys.DvbT2 in r <==> info.feType == FeOfdm && version >= 0x500 && HasCap(info, Can2gModulation)
    ensures DelSys.Atsc in r <==> info.feType == FeAtsc && HasCap(info, Can8Vsb | Can16Vsb)
    ensures DelSys.DvbcAnnexB in r <==> info.feType == FeAtsc && HasCap(info, CanQam64 | CanQam256 | CanQamAuto)
    ensures forall k | 0 <= k < |r| :: r[k] in {DelSys.DvbS, DelSys.DvbS2, DelSys.Turbo, DelSys.DvbcAnnexA,
                                                DelSys.DvbT, DelSys.DvbT2, DelSys.Atsc, DelSys.DvbcAnnexB}
    ensures info.feType == FeQpsk && |r| == 3 ==> r[1] == DelSys.DvbS2
    ensures info.feType == FeAtsc && |r| == 2 ==> r[0] == DelSys.Atsc
  {
    // The second-generation and turbo systems need API 5.0; the ATSC family
    // lists what its modulation capabilities allow.
    var gen2 := version >= 0x500 && HasCap(info, Can2gModulation);
    var turbo := version >= 0x500 && HasCap(info, CanTurboFec);
    var vsb := HasCap(info, Can8Vsb | Can16Vsb);
    var qam := HasCap(info, CanQam64 | CanQam256 | CanQamAuto);
    match info.feType
    case FeQpsk =>
      if gen2 && turbo then [DelSys.DvbS, DelSys.DvbS2, DelSys.Turbo]
      else if gen2 then [DelSys.DvbS, DelSys.DvbS2]
      else if turbo then [DelSys.DvbS, DelSys.Turbo]
      else [DelSys.DvbS]
    case FeQam => [DelSys.DvbcAnnexA]
    case FeOfdm => if gen2 then [DelSys.DvbT, DelSys.DvbT2] else [DelSys.DvbT]
    case FeAtsc =>
      if vsb && qam then [DelSys.Atsc, DelSys.DvbcAnnexB]
      else if vsb then [DelSys.Atsc]
      else if qam then [DelSys.DvbcAnnexB]
      else []
    case FeOther => []
  }

  /** The derivation for three common legacy devices: a satellite tuner
      with second-generation modulation, a terrestrial tuner without it, and
      an ATSC tuner that also does cable QAM. */
  lemma LegacySystemsExamples()
    ensures LegacySystems(FeInfo(FeQpsk, Can2gModulation), 0x505) == [DelSys.DvbS, DelSys.DvbS2]
    ensures LegacySystems(FeInfo(FeOfdm, 0), 0x505) == [DelSys.DvbT]
    ensures LegacySystems(FeInfo(FeAtsc, Can8Vsb | CanQam64), 0x505) == [DelSys.Atsc, DelSys.DvbcAnnexB]
  {
  }

  /** The statistics entries as the session installs them. */
  function InitialStats(): (r: seq<Prop>)
    ensures |r| == |StatCmds| && forall k | 0 <= k < |r| :: r[k] == Prop(StatCmds[k], 0)
  {
    seq(|StatCmds|, k requires 0 <= k < |StatCmds| => Prop(StatCmds[k], 0))
  }

  /** Lines 196-200 of `dvb_fe_open2`: an undefined current system falls back
      to the first supported one, which is then activated. The probe entries
      sit at the head of the otherwise zeroed array until the rebuild. */
  function Start(cat: Catalog, version: u32, legacy: bool, systems: seq<u32>, cur: u32,
                 probed: seq<Prop>, n0: nat): (r: Session)
    requires WellFormed(cat) && |systems| > 0 && |probed| <= Capacity && n0 <= Capacity
    requires legacy ==> LegacyMapped(cur)
    ensures Valid(r) && Parked(r)
    ensures r.version == version && r.legacyFe == legacy && r.systems == systems
    ensures r.currentSys == if cur == DelSys.Undefined then systems[0] else cur
    ensures Activated(cat, r, r.currentSys)
    ensures r.stats == InitialStats()
  {
    var current := if cur == DelSys.Undefined then systems[0] else cur;
    var a := probed + seq(Capacity - |probed|, _ => Prop(0, 0));
    Activate(cat, Session(version, legacy, systems, current, a, n0, InitialStats()), current)
  }

  /** `dvb_fe_open2` once the device node is open. `info` is the legacy
      information call (`None` if it failed), `probe` the version probe,
      `enumerated` the enumeration of supported systems issued for a modern
      device (`None` if it failed). Opening fails when no system can be found. */
  function Open(cat: Catalog, info: Option<FeInfo>, probe: Option<VersionReply>, forceLegacy: bool,
                enumerated: Option<seq<u8>>): (r: Option<Session>)
    requires WellFormed(cat)
    ensures r.Some? ==> Valid(r.value) && Parked(r.value) && Activated(cat, r.value, r.value.currentSys)
    ensures r.Some? ==> r.value.version == ProbedVersion(probe)
                        && r.value.legacyFe == UsesLegacy(ProbedVersion(probe), forceLegacy)
                        && r.value.stats == InitialStats()
    ensures r.None? <==>
              || info.None?
              || (UsesLegacy(ProbedVersion(probe), forceLegacy) && LegacySystems(info.value, ProbedVersion(probe)) == [])
              || (!UsesLegacy(ProbedVersion(probe), forceLegacy) && (enumerated.None? || enumerated.value == []))
    ensures r.Some? && r.value.legacyFe ==>
              && r.value.systems == LegacySystems(info.value, ProbedVersion(probe))
              && r.value.currentSys in r.value.systems
              && r.value.currentSys != DelSys.Undefined
              && r.value.currentSys == r.value.systems[0]
    ensures r.Some? && !r.value.legacyFe ==>
              && enumerated.Some?
              && r.value.systems == enumerated.value
              && r.value.currentSys == if ProbedSystem(probe) == DelSys.Undefined
                                       then r.value.systems[0] else ProbedSystem(probe)
  {
    if info.None? then None
    else
      var version := ProbedVersion(probe);
      var reported := ProbedSystem(probe);
      if UsesLegacy(version, forceLegacy) then
        var systems := LegacySystems(info.value, version);
        if systems == [] then None
        else
          var cur := match info.value.feType
                     case FeQpsk => DelSys.DvbS
                     case FeQam => DelSys.DvbcAnnexA
                     case FeOfdm => DelSys.DvbT
                     case FeAtsc => systems[0]
                     case FeOther => DelSys.DvbS;  // unreachable: no systems derive
          Some(Start(cat, version, true, systems, cur,
                     [Prop(Cmd.ApiVersion, version), Prop(Cmd.DeliverySystem, reported)], 0))
      else if enumerated.None? || enumerated.value == [] then None
      else
        // The enumeration reply overlays the first entry's value; it is left at 0 here.
        Some(Start(cat, version, false, enumerated.value, reported,
                   [Prop(Cmd.EnumDelsys, 0), Prop(Cmd.DeliverySystem, reported)], 1))
  }

  /** `dvb_fe_close`: a session parked on a satellite system powers the LNB
      off, and nothing else reaches the device. */
  function CloseCalls(s: Session): (r: seq<Call>)
    ensures r == [] || r == [SetVoltage(VoltageOff)]
    ensures r != [] <==> IsSatellite(s.currentSys)
  {
    if IsSatellite(s.currentSys) then [SetVoltage(VoltageOff)] else []
  }

  /** A terrestrial device with second-generation capability on API 5.0 with
      legacy calls forced supports DVB-T and DVB-T2, and starts on DVB-T. */
  lemma OpenOfdmScenario(cat: Catalog)
    requires WellFormed(cat)
    ensures var r := Open(cat, Some(FeInfo(FeOfdm, Can2gModulation)), Some(VersionReply(0x500, 0)), true, None);
            && r.Some? && r.value.legacyFe
            && r.value.systems == [DelSys.DvbT, DelSys.DvbT2]
            && r.value.currentSys == DelSys.DvbT
  {
  }
}

=== FILE: legacymap.dfy ===
/** The mapping between the property store and the legacy parameter block,
    as one declarative table per legacy family: which command fills which
    field. The get path (lines 541-571) reads it from block to store; the set
    path (lines 613-644) from store to block. */
module LegacyMap {
  import opened DvbTypes
  import DelSys
  import Cmd
  import opened Catalog
  import opened Classify
  import opened PropStore
  import opened Device

  /** A field of the legacy block. `SlotBandwidth` is union word 0 of the
      OFDM view, which carries a bandwidth CODE that the store keeps in Hz. */
  datatype Slot = SlotFrequency | SlotInversion | SlotWord(k: nat) | SlotBandwidth

  datatype Field = Field(cmd: u32, slot: Slot)

  /** Where a slot lives in the block; the bandwidth shares union word 0. */
  function Loc(slot: Slot): nat {
    match slot
    case SlotFrequency => 0
    case SlotInversion => 1
    case SlotWord(k) => k + 2
    case SlotBandwidth => 2
  }

  /** Frequency and inversion, mapped for every family. */
  const CommonFields: seq<Field> := [Field(Cmd.Frequency, SlotFrequency), Field(Cmd.Inversion, SlotInversion)]

  /** The family-specific fields. `SYS_DVBC_ANNEX_AC`, named by the set path,
      is the same number as `SYS_DVBC_ANNEX_A`, named by the get path, so both
      paths map the same five systems. */
  function FamilyFields(sys: u32): (r: Option<seq<Field>>)
    ensures r.Some? <==> LegacyMapped(sys)
  {
    if sys == DelSys.DvbS then
      Some([Field(Cmd.SymbolRate, SlotWord(0)), Field(Cmd.InnerFec, SlotWord(1))])
    else if sys == DelSys.DvbcAnnexA then
      Some([Field(Cmd.SymbolRate, SlotWord(0)), Field(Cmd.InnerFec, SlotWord(1)), Field(Cmd.Modulation, SlotWord(2))])
    else if sys == DelSys.Atsc || sys == DelSys.DvbcAnnexB then
      Some([Field(Cmd.Modulation, SlotWord(0))])
    else if sys == DelSys.DvbT then
      Some([Field(Cmd.BandwidthHz, SlotBandwidth), Field(Cmd.CodeRateHp, SlotWord(1)),
            Field(Cmd.CodeRateLp, SlotWord(2)), Field(Cmd.Modulation, SlotWord(3)),
            Field(Cmd.TransmissionMode, SlotWord(4)), Field(Cmd.GuardInterval, SlotWord(5)),
            Field(Cmd.Hierarchy, SlotWord(6))])
    else None
  }

  /** All the fields of a mapped family, in the order the source handles them. */
  function LegacyFields(sys: u32): seq<Field>
    requires LegacyMapped(sys)
  {
    CommonFields + FamilyFields(sys).value
  }

  /** The fields of a table occupy distinct places inside the block. */
  predicate FieldsOk(fields: seq<Field>) {
    && (forall i | 0 <= i < |fields| :: fields[i].slot.SlotWord? ==> fields[i].slot.k < 7)
    && (forall i, j | 0 <= i < j < |fields| :: Loc(fields[i].slot) != Loc(fields[j].slot))
  }

  /** The commands some legacy family maps to a block field. */
  predicate MappedCmd(c: u32) {
    c in {Cmd.Frequency, Cmd.Inversion, Cmd.SymbolRate, Cmd.InnerFec, Cmd.Modulation, Cmd.BandwidthHz,
          Cmd.CodeRateHp, Cmd.CodeRateLp, Cmd.TransmissionMode, Cmd.GuardInterval, Cmd.Hierarchy}
  }

  /** Every mapped family's table places its fields at distinct places. */
  lemma LegacyFieldsLaidOut(sys: u32)
    requires LegacyMapped(sys)
    ensures FieldsOk(LegacyFields(sys))
  {
  }

  /** Every mapped family's table names only mapped commands. */
  lemma LegacyFieldsMapped(sys: u32)
    requires LegacyMapped(sys)
    ensures forall i | 0 <= i < |LegacyFields(sys)| :: MappedCmd(LegacyFields(sys)[i].cmd)
  {
  }

  /** Every mapped family's table names each command once. */
  lemma LegacyFieldsDistinct(sys: u32)
    requires LegacyMapped(sys)
    ensures forall i, j | 0 <= i < j < |LegacyFields(sys)| :: LegacyFields(sys)[i].cmd != LegacyFields(sys)[j].cmd
  {
  }

  /** Every mapped family's table is laid out consistently and names each
      command once. */
  lemma LegacyFieldsOk(sys: u32)
    requires LegacyMapped(sys)
    ensures FieldsOk(LegacyFields(sys))
    ensures forall i | 0 <= i < |LegacyFields(sys)| :: MappedCmd(LegacyFields(sys)[i].cmd)
    ensures forall i, j | 0 <= i < j < |LegacyFields(sys)| :: LegacyFields(sys)[i].cmd != LegacyFields(sys)[j].cmd
  {
    LegacyFieldsLaidOut(sys);
    LegacyFieldsMapped(sys);
    LegacyFieldsDistinct(sys);
  }

  /** Lines 558-560: the Hz value of a legacy bandwidth code; a code beyond
      the table's last real entry gives 0. */
  function BandwidthHzOf(cat: Catalog, code: u32): (r: u32)
    ensures r == 0 || r in cat.bandwidthHz
    ensures code + 1 < |cat.bandwidthHz| ==> r == cat.bandwidthHz[code]
    ensures code + 1 >= |cat.bandwidthHz| ==> r == 0
  {
    if code + 1 < |cat.bandwidthHz| then cat.bandwidthHz[code] else 0
  }

  /** The search loop at lines 630-633 from index `k`: stops at the first
      entry equal to `hz` or at the terminating 0, whichever comes first. */
  function CodeFrom(bw: seq<u32>, hz: u32, k: nat): (r: nat)
    requires k < |bw| && 0 in bw[k..]
    ensures k <= r < |bw| && (bw[r] == 0 || bw[r] == hz)
    ensures forall j | k <= j < r :: bw[j] != 0 && bw[j] != hz
    decreases |bw| - k
  {
    if bw[k] == 0 || bw[k] == hz then k
    else
      assert bw[k..] == [bw[k]] + bw[k + 1..];
      CodeFrom(bw, hz, k + 1)
  }

  /** The legacy bandwidth code of a Hz value. */
  function BandwidthCode(cat: Catalog, hz: u32): (r: u32)
    requires WellFormed(cat)
    ensures r < |cat.bandwidthHz| && (cat.bandwidthHz[r] == 0 || cat.bandwidthHz[r] == hz)
    ensures forall j | 0 <= j < r :: cat.bandwidthHz[j] != 0 && cat.bandwidthHz[j] != hz
  {
    assert cat.bandwidthHz[0..] == cat.bandwidthHz;
    CodeFrom(cat.bandwidthHz, hz, 0)
  }

  /** The bandwidths the legacy calls can express: those listed before the terminating 0. */
  predicate Listed(cat: Catalog, hz: u32)
    requires WellFormed(cat)
  {
    hz in cat.bandwidthHz[..BandwidthCode(cat, 0)]
  }

  /** Hz to code and back: a listed bandwidth (or 0) comes back as it was,
      any other comes back as 0. */
  lemma BandwidthRoundTrip(cat: Catalog, hz: u32)
    requires WellFormed(cat)
    ensures BandwidthHzOf(cat, BandwidthCode(cat, hz)) == (if hz == 0 || Listed(cat, hz) then hz else 0)
  {
    var bw := cat.bandwidthHz;
    var code := BandwidthCode(cat, hz);
    var z := BandwidthCode(cat, 0);
    assert bw[z] == 0;
    if hz != 0 && bw[code] == hz {
      // The terminating 0 lies beyond `code`, so `code` is not the last entry.
      assert code < z;
      assert bw[..z][code] == hz;
    }
  }

  /** The value a legacy block reply gives a field, as the get path stores it. */
  function ReplyValue(cat: Catalog, rep: V3Reply, slot: Slot): u32 {
    match slot
    case SlotFrequency => rep.frequency
    case SlotInversion => rep.inversion
    case SlotWord(k) => if k < 7 then rep.u[k] else 0
    case SlotBandwidth => BandwidthHzOf(cat, rep.u[0])
  }

  /** The stores the get path issues for a reply, one per field, in order. */
  function ReplyStores(cat: Catalog, fields: seq<Field>, rep: V3Reply): (r: seq<Prop>)
    ensures |r| == |fields|
    ensures forall k | 0 <= k < |r| :: r[k] == Prop(fields[k].cmd, ReplyValue(cat, rep, fields[k].slot))
  {
    seq(|fields|, k requires 0 <= k < |fields| => Prop(fields[k].cmd, ReplyValue(cat, rep, fields[k].slot)))
  }

  /** Storing a reply field by field: each field's command that is in use
      reads back the reply's value for that field. */
  lemma ReplyReadBack(cat: Catalog, a: seq<Prop>, n: nat, fields: seq<Field>, rep: V3Reply, k: nat)
    requires n <= |a| && k < |fields|
    requires forall i, j | 0 <= i < j < |fields| :: fields[i].cmd != fields[j].cmd
    ensures Retrieve(StoreAll(a, n, ReplyStores(cat, fields, rep)), n, fields[k].cmd)
            == if Retrieve(a, n, fields[k].cmd).Some? then Some(ReplyValue(cat, rep, fields[k].slot)) else None
  {
    var ps := ReplyStores(cat, fields, rep);
    LastValueAt(ps, k, fields[k].cmd);
    StoreAllRetrieve(a, n, ps, fields[k].cmd);
  }

  /** `ReplyReadBack` for every field of the table at once. */
  lemma ReplyReadBackAll(cat: Catalog, a: seq<Prop>, n: nat, fields: seq<Field>, rep: V3Reply)
    requires n <= |a|
    requires forall i, j | 0 <= i < j < |fields| :: fields[i].cmd != fields[j].cmd
    ensures forall k | 0 <= k < |fields| ::
              Retrieve(StoreAll(a, n, ReplyStores(cat, fields, rep)), n, fields[k].cmd)
              == if Retrieve(a, n, fields[k].cmd).Some? then Some(ReplyValue(cat, rep, fields[k].slot)) else None
  {
    forall k | 0 <= k < |fields|
      ensures Retrieve(StoreAll(a, n, ReplyStores(cat, fields, rep)), n, fields[k].cmd)
              == if Retrieve(a, n, fields[k].cmd).Some? then Some(ReplyValue(cat, rep, fields[k].slot)) else None
    {
      ReplyReadBack(cat, a, n, fields, rep, k);
    }
  }

  /** A table that starts with the common fields stores the reply's
      frequency and inversion, whichever family follows. */
  lemma ReplyCommonReadBack(cat: Catalog, a: seq<Prop>, n: nat, fields: seq<Field>, rep: V3Reply)
    requires n <= |a| && |fields| >= 2 && fields[..2] == CommonFields
    requires forall i, j | 0 <= i < j < |fields| :: fields[i].cmd != fields[j].cmd
    ensures Retrieve(StoreAll(a, n, ReplyStores(cat, fields, rep)), n, Cmd.Frequency)
            == if Retrieve(a, n, Cmd.Frequency).Some? then Some(rep.frequency) else None
    ensures Retrieve(StoreAll(a, n, ReplyStores(cat, fields, rep)), n, Cmd.Inversion)
            == if Retrieve(a, n, Cmd.Inversion).Some? then Some(rep.inversion) else None
  {
    assert fields[0] == fields[..2][0] && fields[1] == fields[..2][1];
    ReplyReadBack(cat, a, n, fields, rep, 0);
    ReplyReadBack(cat, a, n, fields, rep, 1);
  }

  /** A field of a request block; the bandwidth slot reads union word 0. */
  function Get(req: V3Request, slot: Slot): Option<u32> {
    match slot
    case SlotFrequency => req.frequency
    case SlotInversion => req.inversion
    case SlotWord(k) => if k < |req.u| then req.u[k] else None
    case SlotBandwidth => if 0 < |req.u| then req.u[0] else None
  }

  /** Fill one field of a request block with a value retrieved from the store.
      QUIRK (as written, `fixed` false): the OFDM bandwidth is retrieved into
      the local `bw`, never into the block, so word 0 stays uninitialised.
      Intended (`fixed` true): the block gets the code of the stored Hz value. */
  function Put(cat: Catalog, req: V3Request, slot: Slot, v: u32, fixed: bool): (r: V3Request)
    requires WellFormed(cat)
    ensures |r.u| == |req.u|
  {
    match slot
    case SlotFrequency => req.(frequency := Some(v))
    case SlotInversion => req.(inversion := Some(v))
    case SlotWord(k) => if k < |req.u| then req.(u := req.u[k := Some(v)]) else req
    case SlotBandwidth =>
      if fixed && 0 < |req.u| then req.(u := req.u[0 := Some(BandwidthCode(cat, v))]) else req
  }

  /** The value `Put` leaves in a slot for a stored value `v`. */
  function Encoded(cat: Catalog, slot: Slot, v: u32): u32
    requires WellFormed(cat)
  {
    if slot == SlotBandwidth then BandwidthCode(cat, v) else v
  }

  /** Lines 613-641: retrieve each field's command into the block; a failed
      retrieve leaves the field as it was. */
  function Fill(cat: Catalog, req: V3Request, a: seq<Prop>, n: nat, fields: seq<Field>, fixed: bool): (r: V3Request)
    requires WellFormed(cat) && n <= |a|
    ensures |r.u| == |req.u|
    decreases |fields|
  {
    if fields == [] then req
    else
      var req1 := match Retrieve(a, n, fields[0].cmd)
                  case None => req
                  case Some(v) => Put(cat, req, fields[0].slot, v, fixed);
      Fill(cat, req1, a, n, fields[1..], fixed)
  }

  /** Filling leaves alone every place no field of the table occupies. */
  lemma {:induction false} FillElsewhere(cat: Catalog, req: V3Request, a: seq<Prop>, n: nat,
                                         fields: seq<Field>, fixed: bool, slot: Slot)
    requires WellFormed(cat) && n <= |a| && |req.u| == 7
    requires slot.SlotWord? ==> slot.k < 7
    requires forall i | 0 <= i < |fields| :: Loc(fields[i].slot) != Loc(slot)
    ensures Get(Fill(cat, req, a, n, fields, fixed), slot) == Get(req, slot)
    decreases |fields|
  {
    if fields != [] {
      var req1 := match Retrieve(a, n, fields[0].cmd)
                  case None => req
                  case Some(v) => Put(cat, req, fields[0].slot, v, fixed);
      assert Get(req1, slot) == Get(req, slot);
      assert forall i | 0 <= i < |fields[1..]| :: fields[1..][i] == fields[i + 1];
      FillElsewhere(cat, req1, a, n, fields[1..], fixed, slot);
    }
  }

  /** After filling, each field holds the encoding of its command's stored
      value (or what it held before, if the command is absent or the field
      is the as-written OFDM bandwidth). */
  lemma {:induction false} FillField(cat: Catalog, req: V3Request, a: seq<Prop>, n: nat,
                                     fields: seq<Field>, fixed: bool, k: nat)
    requires WellFormed(cat) && n <= |a| && |req.u| == 7
    requires FieldsOk(fields) && k < |fields|
    ensures Get(Fill(cat, req, a, n, fields, fixed), fields[k].slot)
            == match Retrieve(a, n, fields[k].cmd)
               case None => Get(req, fields[k].slot)
               case Some(v) =>
                 if fields[k].slot == SlotBandwidth && !fixed then Get(req, fields[k].slot)
                 else Some(Encoded(cat, fields[k].slot, v))
    decreases |fields|
  {
    var req1 := match Retrieve(a, n, fields[0].cmd)
                case None => req
                case Some(v) => Put(cat, req, fields[0].slot, v, fixed);
    var rest := fields[1..];
    assert forall i | 0 <= i < |rest| :: rest[i] == fields[i + 1];
    if k == 0 {
      FillElsewhere(cat, req1, a, n, rest, fixed, fields[0].slot);
    } else {
      assert Get(req1, fields[k].slot) == Get(req, fields[k].slot);
      FillField(cat, req1, a, n, rest, fixed, k - 1);
    }
  }

  /** The legacy block the set path builds from the store for a mapped system. */
  function LegacyRequest(cat: Catalog, a: seq<Prop>, n: nat, sys: u32, fixed: bool): (r: V3Request)
    requires WellFormed(cat) && n <= |a| && LegacyMapped(sys)
    ensures |r.u| == 7
  {
    Fill(cat, Uninitialised, a, n, LegacyFields(sys), fixed)
  }

  /** The device's reply repeats every field the request set. */
  predicate Echoes(req: V3Request, rep: V3Reply) {
    && (req.frequency.Some? ==> rep.frequency == req.frequency.value)
    && (req.inversion.Some? ==> rep.inversion == req.inversion.value)
    && (forall k | 0 <= k < 7 && k < |req.u| :: req.u[k].Some? ==> rep.u[k] == req.u[k].value)
  }

  /** Set then get through a device that echoes the block: storing the reply
      gives back the store the request was built from. This holds for every
      mapped family except, as written, OFDM, whose bandwidth never reaches
      the block; with the intended fill it holds for OFDM too whenever the
      stored bandwidth is one the legacy codes can express. */
  lemma LegacyRoundTrip(cat: Catalog, a: seq<Prop>, n: nat, sys: u32, rep: V3Reply, fixed: bool)
    requires WellFormed(cat) && n <= |a| && LegacyMapped(sys)
    requires fixed || sys != DelSys.DvbT
    requires sys == DelSys.DvbT ==>
               forall hz | Retrieve(a, n, Cmd.BandwidthHz) == Some(hz) :: hz == 0 || Listed(cat, hz)
    requires Echoes(LegacyRequest(cat, a, n, sys, fixed), rep)
    ensures StoreAll(a, n, ReplyStores(cat, LegacyFields(sys), rep)) == a
  {
    var fields := LegacyFields(sys);
    var req := LegacyRequest(cat, a, n, sys, fixed);
    var ps := ReplyStores(cat, fields, rep);
    LegacyFieldsLaidOut(sys);
    forall k | 0 <= k < |ps|
      ensures Retrieve(a, n, ps[k].cmd).None? || Retrieve(a, n, ps[k].cmd) == Some(ps[k].data)
    {
      FillField(cat, Uninitialised, a, n, fields, fixed, k);
      match Retrieve(a, n, fields[k].cmd)
      case None =>
      case Some(v) =>
        if fields[k].slot == SlotBandwidth {
          assert fields[k].cmd == Cmd.BandwidthHz;
          BandwidthRoundTrip(cat, v);
        }
    }
    StoreAllCurrentValues(a, n, ps);
  }

  /** As written, the OFDM block leaves the bandwidth word uninitialised
      whatever the store holds. */
  lemma OfdmBandwidthNeverSet(cat: Catalog, a: seq<Prop>, n: nat)
    requires WellFormed(cat) && n <= |a|
    ensures LegacyRequest(cat, a, n, DelSys.DvbT, false).u[0] == None
  {
    LegacyFieldsOk(DelSys.DvbT);
    FillField(cat, Uninitialised, a, n, LegacyFields(DelSys.DvbT), false, 2);
  }

  /** With the intended fill, a stored bandwidth reaches the block as its code. */
  lemma OfdmBandwidthFixed(cat: Catalog, a: seq<Prop>, n: nat, hz: u32)
    requires WellFormed(cat) && n <= |a| && Retrieve(a, n, Cmd.BandwidthHz) == Some(hz)
    ensures LegacyRequest(cat, a, n, DelSys.DvbT, true).u[0] == Some(BandwidthCode(cat, hz))
  {
    LegacyFieldsOk(DelSys.DvbT);
    FillField(cat, Uninitialised, a, n, LegacyFields(DelSys.DvbT), true, 2);
  }

  /** A concrete OFDM round trip that fails as written: the store holds
      8 MHz, the block's bandwidth word is left unset, the device reports code
      2 in it, and the read-back stores 6 MHz. */
  lemma OfdmRoundTripBreaks(rep: V3Reply)
    requires rep.u[0] == 2
    ensures var cat := Catalog(map[], [8000000, 7000000, 6000000, 0], Cmd.UserCommandStart);
            var a := [Prop(Cmd.BandwidthHz, 8000000)];
            && WellFormed(cat)
            && Echoes(LegacyRequest(cat, a, 1, DelSys.DvbT, false), rep)
            && Retrieve(StoreAll(a, 1, ReplyStores(cat, LegacyFields(DelSys.DvbT), rep)), 1, Cmd.BandwidthHz)
               == Some(6000000)
  {
    var cat := Catalog(map[], [8000000, 7000000, 6000000, 0], Cmd.UserCommandStart);
    var a := [Prop(Cmd.BandwidthHz, 8000000)];
    var fields := LegacyFields(DelSys.DvbT);
    LegacyFieldsLaidOut(DelSys.DvbT);
    var req := LegacyRequest(cat, a, 1, DelSys.DvbT, false);
    forall k | 0 <= k < |fields|
      ensures Get(req, fields[k].slot) == None
    {
      FillField(cat, Uninitialised, a, 1, fields, false, k);
    }
    // Fields 0 and 1 are frequency and inversion, field 2 the bandwidth, and
    // fields 3 to 8 union words 1 to 6.
    assert req.frequency == Get(req, fields[0].slot);
    assert req.inversion == Get(req, fields[1].slot);
    assert req.u[0] == Get(req, fields[2].slot);
    forall k | 1 <= k < 7
      ensures req.u[k] == None
    {
      assert fields[k + 2].slot == SlotWord(k);
    }
    LegacyFieldsDistinct(DelSys.DvbT);
    ReplyReadBack(cat, a, 1, fields, rep, 2);
    assert ReplyValue(cat, rep, fields[2].slot) == 6000000;
  }
}

=== FILE: parms.dfy ===
/** `dvb_fe_get_parms` and `dvb_fe_set_parms`: the translation between the
    property store and the device, through the property-list calls on a
    modern session and through the legacy parameter block otherwise. */
module Parms {
  import opened DvbTypes
  import DelSys
  import Cmd
  import opened Catalog
  import opened Classify
  import opened PropStore
  import opened Device
  import opened Frontend
  import opened LegacyMap

  /** The satellite helpers `dvb_sat_set_parms` and `dvb_sat_get_parms` are
      not part of this model. What the session sees of them is their effect on
      the frequency entry: the set side replaces the transponder frequency by
      the intermediate frequency the LNB needs (`toIf`), the get side converts
      it back (`fromIf`) and its return code (`getRc`) is passed on. */
  datatype Lnb = Lnb(toIf: u32 -> u32, fromIf: u32 -> u32, getRc: int)

  /** The layout of the store the get path builds: the current system's
      table commands, then the delivery-system entry, with `DTV_TUNE` just
      past the entries in use. */
  ghost predicate Layout(cat: Catalog, s: Session)
    requires |s.props| == Capacity
  {
    && s.currentSys in cat.sysProps
    && var t := cat.sysProps[s.currentSys];
    && |t| + 2 <= Capacity
    && s.nProps == |t| + 1
    && (forall k | 0 <= k < |t| :: s.props[k].cmd == t[k])
    && s.props[|t|].cmd == Cmd.DeliverySystem
    && s.props[|t| + 1].cmd == Cmd.Tune
  }

  /** The store as the get path leaves it before asking the device: laid out
      for the current system, whose number the delivery-system entry holds. */
  ghost predicate Reloaded(cat: Catalog, s: Session)
    requires |s.props| == Capacity
  {
    Layout(cat, s) && s.props[|cat.sysProps[s.currentSys]|].data == s.currentSys
  }

  /** A change that keeps every command and the delivery-system entry keeps
      the store reloaded. */
  lemma ReloadedKept(cat: Catalog, s: Session, t: Session)
    requires |s.props| == Capacity && Reloaded(cat, s)
    requires t == s.(props := t.props) && SameCmds(s.props, t.props)
    requires t.props[|cat.sysProps[s.currentSys]|] == s.props[|cat.sysProps[s.currentSys]|]
    ensures Reloaded(cat, t)
  {
  }

  /** Lines 502-516. QUIRK: unlike a switch, this rebuild keeps the values
      already in the array; only the delivery-system entry gets one. */
  function Reload(cat: Catalog, s: Session): (r: Session)
    requires WellFormed(cat) && Valid(s) && s.currentSys in cat.sysProps
    ensures Valid(r) && Reloaded(cat, r)
    ensures r == s.(props := r.props, nProps := r.nProps)
    ensures forall k | 0 <= k < Capacity && k != |cat.sysProps[s.currentSys]| :: r.props[k].data == s.props[k].data
  {
    var t := cat.sysProps[s.currentSys];
    var a := seq(Capacity, k requires 0 <= k < Capacity =>
               if k < |t| then Prop(t[k], s.props[k].data)
               else if k == |t| then Prop(Cmd.DeliverySystem, s.currentSys)
               else if k == |t| + 1 then Prop(Cmd.Tune, s.props[k].data)
               else s.props[k]);
    s.(props := a, nProps := |t| + 1)
  }

  /** Reloading a store that is already laid out for its system changes nothing. */
  lemma ReloadReloaded(cat: Catalog, s: Session)
    requires WellFormed(cat) && Valid(s) && Reloaded(cat, s)
    ensures Reload(cat, s) == s
  {
    assert Reload(cat, s).props == s.props;
  }

  /** The commands a get asks the device for: the in-use list without
      library-only (user range) commands. */
  function GetRequest(s: Session): (r: seq<u32>)
    requires Valid(s)
    ensures |r| <= s.nProps
    ensures forall k | 0 <= k < |r| :: r[k] < Cmd.UserCommandStart
    ensures forall j | 0 <= j < s.nProps && s.props[j].cmd < Cmd.UserCommandStart :: s.props[j].cmd in r
    ensures IsSubsequence(r, CmdsOf(s.props[..s.nProps]))
    ensures |r| == StandardCount(s.props[..s.nProps])
  {
    var copied := CopyFeProps(s.props[..s.nProps]);
    SubsequenceCmds(copied, s.props[..s.nProps]);
    forall j | 0 <= j < s.nProps && s.props[j].cmd < Cmd.UserCommandStart
      ensures s.props[j].cmd in CmdsOf(copied)
    {
      assert s.props[..s.nProps][j] == s.props[j];
      var k :| 0 <= k < |copied| && copied[k] == s.props[j];
      assert CmdsOf(copied)[k] == s.props[j].cmd;
    }
    CmdsOf(copied)
  }

  /** Lines 574-576 and `dvb_sat_get_parms`: on a satellite system the
      stored frequency is converted back from the intermediate frequency and
      the helper's code is returned; elsewhere the code is 0. */
  function SatGet(lnb: Lnb, s: Session): (r: (Session, int))
    requires Valid(s)
    ensures Valid(r.0) && r.0 == s.(props := r.0.props) && SameCmds(s.props, r.0.props)
    ensures !IsSatellite(s.currentSys) ==> r == (s, 0)
    ensures IsSatellite(s.currentSys) ==> r.1 == lnb.getRc
    ensures forall j | 0 <= j < Capacity && s.props[j].cmd != Cmd.Frequency :: r.0.props[j] == s.props[j]
    ensures forall c | c != Cmd.Frequency :: RetrieveParm(r.0, c) == RetrieveParm(s, c)
    ensures IsSatellite(s.currentSys) ==>
              RetrieveParm(r.0, Cmd.Frequency)
              == if RetrieveParm(s, Cmd.Frequency).Some?
                 then Some(lnb.fromIf(RetrieveParm(s, Cmd.Frequency).value)) else None
  {
    if !IsSatellite(s.currentSys) then (s, 0)
    else
      match RetrieveParm(s, Cmd.Frequency)
      case None => (s, lnb.getRc)
      case Some(f) => (StoreParm(s, Cmd.Frequency, lnb.fromIf(f)).s, lnb.getRc)
  }

  /** Lines 531-571: the legacy read-back. The frequency and inversion are
      stored first; a family the mapping does not know then stops with
      `-EINVAL`, otherwise the family's fields are stored in table order. */
  function LegacyGet(cat: Catalog, s: Session, rep: V3Reply): (r: (Session, int))
    requires WellFormed(cat) && Valid(s)
    ensures Valid(r.0) && r.0 == s.(props := r.0.props) && SameCmds(s.props, r.0.props)
    ensures r.1 == 0 || r.1 == -EINVAL
    ensures r.1 == -EINVAL <==> !LegacyMapped(s.currentSys)
    ensures forall j | 0 <= j < Capacity && !MappedCmd(s.props[j].cmd) :: r.0.props[j] == s.props[j]
    ensures RetrieveParm(r.0, Cmd.Frequency)
            == if RetrieveParm(s, Cmd.Frequency).Some? then Some(rep.frequency) else None
    ensures RetrieveParm(r.0, Cmd.Inversion)
            == if RetrieveParm(s, Cmd.Inversion).Some? then Some(rep.inversion) else None
    ensures r.1 == 0 ==>
              forall k | 0 <= k < |LegacyFields(s.currentSys)| ::
                var f := LegacyFields(s.currentSys)[k];
                RetrieveParm(r.0, f.cmd)
                == if RetrieveParm(s, f.cmd).Some? then Some(ReplyValue(cat, rep, f.slot)) else None
  {
    match FamilyFields(s.currentSys)
    case None =>
      ReplyCommonReadBack(cat, s.props, s.nProps, CommonFields, rep);
      StoreAllUntouched(s.props, s.nProps, ReplyStores(cat, CommonFields, rep));
      (s.(props := StoreAll(s.props, s.nProps, ReplyStores(cat, CommonFields, rep))), -EINVAL)
    case Some(_) =>
      var fields := LegacyFields(s.currentSys);
      LegacyFieldsOk(s.currentSys);
      assert fields[..2] == CommonFields;
      StoreAllUntouched(s.props, s.nProps, ReplyStores(cat, fields, rep));
      ReplyReadBackAll(cat, s.props, s.nProps, fields, rep);
      ReplyCommonReadBack(cat, s.props, s.nProps, fields, rep);
      (s.(props := StoreAll(s.props, s.nProps, ReplyStores(cat, fields, rep))), 0)
  }

  /** After a successful legacy read-back and the satellite step, every
      field command of the current system's table reads back the device's
      value, except the frequency on a satellite system, which the
      satellite step converts. */
  lemma LegacyReadBackKept(cat: Catalog, lnb: Lnb, s1: Session, rep: V3Reply)
    requires WellFormed(cat) && Valid(s1) && Reloaded(cat, s1) && LegacyMapped(s1.currentSys)
    ensures var sat := SatGet(lnb, LegacyGet(cat, s1, rep).0).0;
            forall k | 0 <= k < |LegacyFields(s1.currentSys)| ::
              var f := LegacyFields(s1.currentSys)[k];
              f.cmd in cat.sysProps[s1.currentSys] && (f.cmd != Cmd.Frequency || !IsSatellite(s1.currentSys))
              ==> RetrieveParm(sat, f.cmd) == Some(ReplyValue(cat, rep, f.slot))
  {
    var got := LegacyGet(cat, s1, rep);
    var sat := SatGet(lnb, got.0).0;
    var fields := LegacyFields(s1.currentSys);
    var t := cat.sysProps[s1.currentSys];
    forall k | 0 <= k < |fields| && fields[k].cmd in t
                && (fields[k].cmd != Cmd.Frequency || !IsSatellite(s1.currentSys))
      ensures RetrieveParm(sat, fields[k].cmd) == Some(ReplyValue(cat, rep, fields[k].slot))
    {
      var i :| 0 <= i < |t| && t[i] == fields[k].cmd;
      assert s1.props[i].cmd == fields[k].cmd;
      assert RetrieveParm(s1, fields[k].cmd).Some?;
    }
  }

  /** `dvb_fe_get_parms` as written. `reply` is the outcome of the
      property-list read on a modern session, `answer` the value the device
      gives each command it is asked for, `frontend` the legacy block read on
      a legacy session (`None` if that call failed).
      QUIRK: the modern read goes into a local copy of the list that is never
      copied back, so `answer` never reaches the store. */
  function GetParms(cat: Catalog, lnb: Lnb, s: Session, reply: Ioctl, answer: u32 -> u32,
                    frontend: Option<V3Reply>): (r: Step)
    requires WellFormed(cat) && Valid(s)
    ensures Valid(r.s) && r.s == s.(props := r.s.props, nProps := r.s.nProps)
    ensures s.currentSys !in cat.sysProps ==> r == Step(s, EINVAL, [])
    ensures s.currentSys in cat.sysProps ==> Reloaded(cat, r.s)
    ensures s.currentSys in cat.sysProps && !s.legacyFe ==> r.calls == [GetProperties(GetRequest(Reload(cat, s)))]
    ensures s.currentSys in cat.sysProps && s.legacyFe ==> r.calls == [GetFrontend]
    ensures s.currentSys in cat.sysProps && !s.legacyFe && reply.Failed? ==> r.rc == reply.errno
    ensures s.currentSys in cat.sysProps && s.legacyFe && frontend.None? ==> r.rc == -1
    ensures s.currentSys in cat.sysProps && s.legacyFe && frontend.Some? && !LegacyMapped(s.currentSys)
            ==> r.rc == -EINVAL
    ensures s.currentSys in cat.sysProps && (if s.legacyFe then frontend.Some? && LegacyMapped(s.currentSys) else reply.Done?)
            ==> r.rc == if IsSatellite(s.currentSys) then lnb.getRc else 0
    ensures s.currentSys in cat.sysProps && !s.legacyFe && !IsSatellite(s.currentSys) ==>
              forall k | 0 <= k < Capacity && k != |cat.sysProps[s.currentSys]| :: r.s.props[k].data == s.props[k].data
    ensures s.currentSys in cat.sysProps && !s.legacyFe && reply.Failed? ==>
              forall k | 0 <= k < Capacity && k != |cat.sysProps[s.currentSys]| :: r.s.props[k].data == s.props[k].data
    ensures s.currentSys in cat.sysProps && !s.legacyFe && reply.Done? ==> r.s == SatGet(lnb, Reload(cat, s)).0
    ensures s.currentSys in cat.sysProps && s.legacyFe && frontend.Some? && LegacyMapped(s.currentSys) ==>
              forall k | 0 <= k < |LegacyFields(s.currentSys)| ::
                var f := LegacyFields(s.currentSys)[k];
                f.cmd in cat.sysProps[s.currentSys] && (f.cmd != Cmd.Frequency || !IsSatellite(s.currentSys))
                ==> RetrieveParm(r.s, f.cmd) == Some(ReplyValue(cat, frontend.value, f.slot))
  {
    if s.currentSys !in cat.sysProps then Step(s, EINVAL, [])
    else
      var s1 := Reload(cat, s);
      if !s.legacyFe then
        var calls := [GetProperties(GetRequest(s1))];
        if reply.Failed? then Step(s1, reply.errno, calls)
        else
          var sat := SatGet(lnb, s1);
          ReloadedKept(cat, s1, sat.0);
          Step(sat.0, sat.1, calls)
      else if frontend.None? then Step(s1, -1, [GetFrontend])
      else
        var got := LegacyGet(cat, s1, frontend.value);
        var ds := |cat.sysProps[s.currentSys]|;
        assert !MappedCmd(s1.props[ds].cmd);
        ReloadedKept(cat, s1, got.0);
        if got.1 != 0 then Step(got.0, got.1, [GetFrontend])
        else
          var sat := SatGet(lnb, got.0);
          ReloadedKept(cat, got.0, sat.0);
          LegacyReadBackKept(cat, lnb, s1, frontend.value);
          Step(sat.0, sat.1, [GetFrontend])
  }

  /** The stores a modern read applies when its answers are copied back. */
  function AnswerStores(cmds: seq<u32>, answer: u32 -> u32): (r: seq<Prop>)
    ensures |r| == |cmds| && forall k | 0 <= k < |r| :: r[k] == Prop(cmds[k], answer(cmds[k]))
  {
    seq(|cmds|, k requires 0 <= k < |cmds| => Prop(cmds[k], answer(cmds[k])))
  }

  /** The modern read's answers copied back into a reloaded store: every
      table command the device is asked for reads back its answer, and the
      layout of the store is kept. */
  function CopyBack(cat: Catalog, s: Session, answer: u32 -> u32): (r: Session)
    requires WellFormed(cat) && Valid(s) && Reloaded(cat, s)
    ensures Valid(r) && Layout(cat, r) && r == s.(props := r.props)
    ensures forall c | c in cat.sysProps[s.currentSys] && c < Cmd.UserCommandStart ::
              RetrieveParm(r, c) == Some(answer(c))
  {
    var req := GetRequest(s);
    var ps := AnswerStores(req, answer);
    var r := s.(props := StoreAll(s.props, s.nProps, ps));
    var t := cat.sysProps[s.currentSys];
    forall c | c in t && c < Cmd.UserCommandStart
      ensures RetrieveParm(r, c) == Some(answer(c))
    {
      var i :| 0 <= i < |t| && t[i] == c;
      assert s.props[i].cmd == c;
      var k :| 0 <= k < |req| && req[k] == c;
      LastValueUniform(ps, c, answer(c), k);
      StoreAllRetrieve(s.props, s.nProps, ps, c);
    }
    StoreAllBeyond(s.props, s.nProps, ps, |t| + 1);
    r
  }

  /** `dvb_fe_get_parms` with the modern read's answers copied back into the
      store, as intended; the legacy path is unchanged. */
  function GetParmsFixed(cat: Catalog, lnb: Lnb, s: Session, reply: Ioctl, answer: u32 -> u32,
                         frontend: Option<V3Reply>): (r: Step)
    requires WellFormed(cat) && Valid(s)
    ensures Valid(r.s) && r.s == s.(props := r.s.props, nProps := r.s.nProps)
    ensures s.currentSys !in cat.sysProps ==> r == Step(s, EINVAL, [])
    ensures s.currentSys in cat.sysProps ==> Layout(cat, r.s)
    ensures s.legacyFe ==> r == GetParms(cat, lnb, s, reply, answer, frontend)
    ensures s.currentSys in cat.sysProps && !s.legacyFe ==>
              r.calls == [GetProperties(GetRequest(Reload(cat, s)))]
              && r.rc == (if reply.Failed? then reply.errno else if IsSatellite(s.currentSys) then lnb.getRc else 0)
    ensures s.currentSys in cat.sysProps && !s.legacyFe && reply.Done? ==>
              forall c | c in cat.sysProps[s.currentSys] && c < Cmd.UserCommandStart
                         && (c != Cmd.Frequency || !IsSatellite(s.currentSys)) ::
                RetrieveParm(r.s, c) == Some(answer(c))
  {
    if s.currentSys !in cat.sysProps || s.legacyFe then GetParms(cat, lnb, s, reply, answer, frontend)
    else
      var s1 := Reload(cat, s);
      var calls := [GetProperties(GetRequest(s1))];
      if reply.Failed? then Step(s1, reply.errno, calls)
      else
        var sat := SatGet(lnb, CopyBack(cat, s1, answer));
        Step(sat.0, sat.1, calls)
  }

  /** As written, what the device answers a modern read makes no difference
      to the session or the return code. */
  lemma GetParmsDiscardsAnswer(cat: Catalog, lnb: Lnb, s: Session, reply: Ioctl,
                               answer1: u32 -> u32, answer2: u32 -> u32, frontend: Option<V3Reply>)
    requires WellFormed(cat) && Valid(s)
    ensures GetParms(cat, lnb, s, reply, answer1, frontend) == GetParms(cat, lnb, s, reply, answer2, frontend)
  {
  }

  /** As written, a successful modern read on a satellite system converts the
      caller's own frequency as if it were the intermediate frequency, since
      the device's answer is discarded: every other command keeps its value,
      and each further read converts the frequency once more. */
  lemma ModernSatGetDrifts(cat: Catalog, lnb: Lnb, s: Session, answer: u32 -> u32)
    requires WellFormed(cat) && Valid(s) && s.currentSys in cat.sysProps
    requires !s.legacyFe && IsSatellite(s.currentSys)
    ensures var r := GetParms(cat, lnb, s, Done, answer, None).s;
            && (forall c | c != Cmd.Frequency :: RetrieveParm(r, c) == RetrieveParm(Reload(cat, s), c))
            && RetrieveParm(r, Cmd.Frequency)
               == if RetrieveParm(Reload(cat, s), Cmd.Frequency).Some?
                  then Some(lnb.fromIf(RetrieveParm(Reload(cat, s), Cmd.Frequency).value)) else None
    ensures forall f | RetrieveParm(Reload(cat, s), Cmd.Frequency) == Some(f) ::
              var once := GetParms(cat, lnb, s, Done, answer, None).s;
              RetrieveParm(GetParms(cat, lnb, once, Done, answer, None).s, Cmd.Frequency)
              == Some(lnb.fromIf(lnb.fromIf(f)))
  {
    var once := GetParms(cat, lnb, s, Done, answer, None).s;
    ReloadReloaded(cat, once);
  }

  /** Set then get on a modern session: when the device answers each command
      with the value the store holds for it, the intended read-back leaves
      the store as it was. */
  lemma ModernGetKeepsEcho(cat: Catalog, lnb: Lnb, s: Session, reply: Ioctl, answer: u32 -> u32)
    requires WellFormed(cat) && Valid(s) && Reloaded(cat, s) && !s.legacyFe && !IsSatellite(s.currentSys)
    requires forall c | RetrieveParm(s, c).Some? :: answer(c) == RetrieveParm(s, c).value
    ensures GetParmsFixed(cat, lnb, s, reply, answer, None).s == s
  {
    ReloadReloaded(cat, s);
    if reply.Done? {
      var req := GetRequest(s);
      var ps := AnswerStores(req, answer);
      forall k | 0 <= k < |ps|
        ensures Retrieve(s.props, s.nProps, ps[k].cmd).None?
                || Retrieve(s.props, s.nProps, ps[k].cmd) == Some(ps[k].data)
      {
      }
      StoreAllCurrentValues(s.props, s.nProps, ps);
    }
  }

  /** Lines 585-588 and `dvb_sat_set_parms`: on a satellite system, remember
      the stored frequency and replace it by the intermediate frequency. */
  function SatSet(lnb: Lnb, s: Session): (r: (Session, Option<u32>))
    requires Valid(s)
    ensures Valid(r.0) && r.0 == s.(props := r.0.props) && SameCmds(s.props, r.0.props)
    ensures r.1 == if IsSatellite(s.currentSys) then RetrieveParm(s, Cmd.Frequency) else None
    ensures r.1.None? ==> r.0 == s
    ensures r.1.Some? ==> RetrieveParm(r.0, Cmd.Frequency) == Some(lnb.toIf(r.1.value))
    ensures forall c | c != Cmd.Frequency :: RetrieveParm(r.0, c) == RetrieveParm(s, c)
  {
    if !IsSatellite(s.currentSys) then (s, None)
    else
      match RetrieveParm(s, Cmd.Frequency)
      case None => (s, None)
      case Some(f) => (StoreParm(s, Cmd.Frequency, lnb.toIf(f)).s, Some(f))
  }

  /** Lines 651-653: put the remembered frequency back. */
  function Restore(s: Session, saved: Option<u32>): (r: Session)
    requires Valid(s)
    ensures Valid(r) && r == s.(props := r.props)
    ensures saved.Some? ==> forall c | c != Cmd.Frequency :: RetrieveParm(r, c) == RetrieveParm(s, c)
    ensures saved.Some? ==> RetrieveParm(r, Cmd.Frequency) == if RetrieveParm(s, Cmd.Frequency).Some? then saved else None
    ensures saved.None? ==> r == s
  {
    if saved.Some? then StoreParm(s, Cmd.Frequency, saved.value).s else s
  }

  /** Restoring after the satellite conversion gives the session back. */
  lemma RestoreSatSet(lnb: Lnb, s: Session)
    requires Valid(s)
    ensures Restore(SatSet(lnb, s).0, SatSet(lnb, s).1) == s
  {
    var saved := SatSet(lnb, s).1;
    if saved.Some? {
      StoreRestore(s.props, s.nProps, Cmd.Frequency, saved.value, lnb.toIf(saved.value));
    }
  }

  /** The property list a modern set sends: the in-use list without
      library-only commands, then `DTV_TUNE`. Its value is whatever the
      local array held; it is modelled as 0. */
  function SetRequest(s: Session): (r: seq<Prop>)
    requires Valid(s)
    ensures 0 < |r| <= Capacity && r[|r| - 1] == Prop(Cmd.Tune, 0)
    ensures forall k | 0 <= k < |r| - 1 :: r[k].cmd < Cmd.UserCommandStart
    ensures forall j | 0 <= j < s.nProps && s.props[j].cmd < Cmd.UserCommandStart :: s.props[j] in r
    ensures IsSubsequence(r[..|r| - 1], s.props[..s.nProps])
    ensures |r| - 1 == StandardCount(s.props[..s.nProps])
  {
    var copied := CopyFeProps(s.props[..s.nProps]);
    assert (copied + [Prop(Cmd.Tune, 0)])[..|copied|] == copied;
    forall j | 0 <= j < s.nProps && s.props[j].cmd < Cmd.UserCommandStart
      ensures s.props[j] in copied
    {
      assert s.props[..s.nProps][j] == s.props[j];
    }
    copied + [Prop(Cmd.Tune, 0)]
  }

  /** `dvb_fe_set_parms` as written, with `reply` the outcome of the one set
      call it issues.
      QUIRKS: on a legacy OFDM session the bandwidth field of the block is
      never filled (see `LegacyMap.Put`); and the satellite frequency is put
      back only on success, so after a failed set the store keeps the
      intermediate frequency. */
  function SetParms(cat: Catalog, lnb: Lnb, s: Session, reply: Ioctl): (r: Step)
    requires WellFormed(cat) && Valid(s)
    ensures Valid(r.s) && r.s == s.(props := r.s.props) && SameCmds(s.props, r.s.props)
    ensures r.rc == 0 || r.rc == -1 || r.rc == -EINVAL
    ensures r.rc == -EINVAL <==> s.legacyFe && !LegacyMapped(s.currentSys)
    ensures r.rc == -EINVAL ==> r.calls == []
    ensures r.rc != -EINVAL ==> |r.calls| == 1 && (r.rc == -1 <==> reply.Failed?)
    ensures !s.legacyFe ==> r.calls == [SetProperties(SetRequest(SatSet(lnb, s).0))]
    ensures s.legacyFe && LegacyMapped(s.currentSys) ==>
              r.calls == [SetFrontend(LegacyRequest(cat, SatSet(lnb, s).0.props, s.nProps, s.currentSys, false))]
    ensures r.rc == 0 || !IsSatellite(s.currentSys) ==> r.s == s
    ensures r.rc != 0 && IsSatellite(s.currentSys) && RetrieveParm(s, Cmd.Frequency).Some? ==>
              RetrieveParm(r.s, Cmd.Frequency) == Some(lnb.toIf(RetrieveParm(s, Cmd.Frequency).value))
  {
    var sat := SatSet(lnb, s);
    RestoreSatSet(lnb, s);
    if !s.legacyFe then
      var calls := [SetProperties(SetRequest(sat.0))];
      if reply.Failed? then Step(sat.0, -1, calls)
      else Step(Restore(sat.0, sat.1), 0, calls)
    else if !LegacyMapped(s.currentSys) then Step(sat.0, -EINVAL, [])
    else
      var calls := [SetFrontend(LegacyRequest(cat, sat.0.props, s.nProps, s.currentSys, false))];
      if reply.Failed? then Step(sat.0, -1, calls)
      else Step(Restore(sat.0, sat.1), 0, calls)
  }

  /** `dvb_fe_set_parms` as intended: the OFDM bandwidth reaches the block as
      its legacy code, and the satellite frequency is put back whatever the
      outcome, so a set never changes the session. */
  function SetParmsFixed(cat: Catalog, lnb: Lnb, s: Session, reply: Ioctl): (r: Step)
    requires WellFormed(cat) && Valid(s)
    ensures r.s == s
    ensures r.rc == (if s.legacyFe && !LegacyMapped(s.currentSys) then -EINVAL
                     else if reply.Failed? then -1 else 0)
    ensures !s.legacyFe ==> r.calls == SetParms(cat, lnb, s, reply).calls
    ensures s.legacyFe && LegacyMapped(s.currentSys) ==>
              r.calls == [SetFrontend(LegacyRequest(cat, SatSet(lnb, s).0.props, s.nProps, s.currentSys, true))]
  {
    var sat := SatSet(lnb, s);
    RestoreSatSet(lnb, s);
    var back := Restore(sat.0, sat.1);
    if !s.legacyFe then
      Step(back, if reply.Failed? then -1 else 0, [SetProperties(SetRequest(sat.0))])
    else if !LegacyMapped(s.currentSys) then Step(back, -EINVAL, [])
    else
      var calls := [SetFrontend(LegacyRequest(cat, sat.0.props, s.nProps, s.currentSys, true))];
      Step(back, if reply.Failed? then -1 else 0, calls)
  }

  /** As written, retrying a set after a failure converts the satellite
      frequency twice: the retry builds its request from the intermediate
      frequency of the failed attempt. With the intended set the retry
      converts once. */
  lemma SetParmsRetryConvertsTwice(cat: Catalog, lnb: Lnb, s: Session, err: Errno, f: u32)
    requires WellFormed(cat) && Valid(s) && IsSatellite(s.currentSys)
    requires !s.legacyFe || LegacyMapped(s.currentSys)
    requires RetrieveParm(s, Cmd.Frequency) == Some(f)
    ensures var failed := SetParms(cat, lnb, s, Failed(err));
            RetrieveParm(SatSet(lnb, failed.s).0, Cmd.Frequency) == Some(lnb.toIf(lnb.toIf(f)))
    ensures var failed := SetParmsFixed(cat, lnb, s, Failed(err));
            RetrieveParm(SatSet(lnb, failed.s).0, Cmd.Frequency) == Some(lnb.toIf(f))
  {
  }

  /** A session that stays on a system the legacy mapping knows never meets
      the `-EINVAL` default of either legacy path. On a satellite system the
      get returns the satellite helper's own code, which is outside the model;
      only that code can be `-EINVAL`. */
  lemma ParkedNeverUnmapped(cat: Catalog, lnb: Lnb, s: Session, reply: Ioctl, answer: u32 -> u32, rep: V3Reply)
    requires WellFormed(cat) && Valid(s) && Parked(s)
    ensures GetParms(cat, lnb, s, reply, answer, Some(rep)).rc == -EINVAL
            ==> IsSatellite(s.currentSys) && lnb.getRc == -EINVAL
    ensures SetParms(cat, lnb, s, reply).rc != -EINVAL
  {
  }

  /** The get side of a satellite round trip: the read-back of an echoed
      block overwrites the intermediate frequency, so converting it back
      restores the session when the LNB conversion is reversible on the
      stored frequency. */
  lemma SatGetAfterEcho(cat: Catalog, lnb: Lnb, s: Session, rep: V3Reply)
    requires WellFormed(cat) && Valid(s) && LegacyMapped(s.currentSys)
    requires forall f | RetrieveParm(s, Cmd.Frequency) == Some(f) :: lnb.fromIf(lnb.toIf(f)) == f
    requires StoreAll(SatSet(lnb, s).0.props, s.nProps, ReplyStores(cat, LegacyFields(s.currentSys), rep))
             == SatSet(lnb, s).0.props
    ensures SatGet(lnb, LegacyGet(cat, s, rep).0).0 == s
  {
    var sat := SatSet(lnb, s);
    var ps := ReplyStores(cat, LegacyFields(s.currentSys), rep);
    assert ps[0].cmd == Cmd.Frequency;
    var got := LegacyGet(cat, s, rep).0;
    assert got.props == StoreAll(s.props, s.nProps, ps);
    if sat.1.Some? {
      var f := sat.1.value;
      var i := Find(s.props, s.nProps, Cmd.Frequency).value;
      assert sat.0.props == s.props[i := Prop(Cmd.Frequency, lnb.toIf(f))];
      StoreAllOverwrites(s.props, s.nProps, ps, Cmd.Frequency, lnb.toIf(f), 0);
      assert got == sat.0;
      StoreRestore(s.props, s.nProps, Cmd.Frequency, f, lnb.toIf(f));
    }
  }

  /** Set then get on a legacy session: when the device reports back the
      block it was sent, a get leaves the store as it was, both from the
      session the set started on and, when the set succeeds, from the
      session it leaves. As written this holds for every mapped family but
      OFDM. On a satellite system it needs
      the LNB conversion to be undone by the get side and the satellite
      helper to report success. */
  lemma LegacySetGetRoundTrip(cat: Catalog, lnb: Lnb, s: Session, reply: Ioctl, answer: u32 -> u32, rep: V3Reply)
    requires WellFormed(cat) && Valid(s) && Reloaded(cat, s)
    requires s.legacyFe && LegacyMapped(s.currentSys)
    requires s.currentSys != DelSys.DvbT
    requires IsSatellite(s.currentSys) ==> lnb.getRc == 0
    requires forall f | RetrieveParm(s, Cmd.Frequency) == Some(f) :: lnb.fromIf(lnb.toIf(f)) == f
    requires Echoes(SetParms(cat, lnb, s, reply).calls[0].request, rep)
    ensures GetParms(cat, lnb, s, reply, answer, Some(rep)) == Step(s, 0, [GetFrontend])
    ensures reply.Done? ==>
              GetParms(cat, lnb, SetParms(cat, lnb, s, reply).s, reply, answer, Some(rep)) == Step(s, 0, [GetFrontend])
  {
    ReloadReloaded(cat, s);
    var sat := SatSet(lnb, s).0;
    LegacyRoundTrip(cat, sat.props, s.nProps, s.currentSys, rep, false);
    SatGetAfterEcho(cat, lnb, s, rep);
  }

  /** The same round trip with the intended set holds for OFDM too, whenever
      the stored bandwidth is one the legacy codes can express; the intended
      set leaves the session alone whatever the outcome. */
  lemma LegacySetGetRoundTripFixed(cat: Catalog, lnb: Lnb, s: Session, reply: Ioctl, answer: u32 -> u32, rep: V3Reply)
    requires WellFormed(cat) && Valid(s) && Reloaded(cat, s)
    requires s.legacyFe && LegacyMapped(s.currentSys)
    requires forall hz | RetrieveParm(s, Cmd.BandwidthHz) == Some(hz) :: hz == 0 || Listed(cat, hz)
    requires IsSatellite(s.currentSys) ==> lnb.getRc == 0
    requires forall f | RetrieveParm(s, Cmd.Frequency) == Some(f) :: lnb.fromIf(lnb.toIf(f)) == f
    requires Echoes(SetParmsFixed(cat, lnb, s, reply).calls[0].request, rep)
    ensures GetParms(cat, lnb, s, reply, answer, Some(rep)) == Step(s, 0, [GetFrontend])
    ensures GetParms(cat, lnb, SetParmsFixed(cat, lnb, s, reply).s, reply, answer, Some(rep)) == Step(s, 0, [GetFrontend])
  {
    ReloadReloaded(cat, s);
    var sat := SatSet(lnb, s).0;
    LegacyRoundTrip(cat, sat.props, s.nProps, s.currentSys, rep, true);
    SatGetAfterEcho(cat, lnb, s, rep);
  }
}

=== FILE: propstore.dfy ===
/** The property store: the session's fixed array of `(cmd, value)` entries,
    of which the first `n` are in use. Lookups are first-match linear scans
    over those `n` entries (`dvb_fe_retrieve_parm`, `dvb_fe_store_parm`). */
module PropStore {
  import opened DvbTypes
  import Cmd

  /** Index of the first entry among `a[i..n]` whose command is `cmd`. */
  function FindFrom(a: seq<Prop>, n: nat, cmd: u32, i: nat): (r: Option<nat>)
    requires i <= n <= |a|
    ensures r.Some? ==> i <= r.value < n && a[r.value].cmd == cmd
    ensures r.Some? ==> forall j | i <= j < r.value :: a[j].cmd != cmd
    ensures r.None? ==> forall j | i <= j < n :: a[j].cmd != cmd
    decreases n - i
  {
    if i == n then None
    else if a[i].cmd == cmd then Some(i)
    else FindFrom(a, n, cmd, i + 1)
  }

  /** Index of the first in-use entry holding `cmd`. */
  function Find(a: seq<Prop>, n: nat, cmd: u32): Option<nat>
    requires n <= |a|
  {
    FindFrom(a, n, cmd, 0)
  }

  /** `a` and `b` hold the same commands in the same places. */
  predicate SameCmds(a: seq<Prop>, b: seq<Prop>) {
    |a| == |b| && forall j | 0 <= j < |a| :: a[j].cmd == b[j].cmd
  }

  /** `dvb_fe_retrieve_parm`: the value of the first in-use entry holding
      `cmd`, or `None` (the source's `EINVAL`) when no in-use entry holds it. */
  function Retrieve(a: seq<Prop>, n: nat, cmd: u32): (r: Option<u32>)
    requires n <= |a|
    ensures r.None? <==> forall j | 0 <= j < n :: a[j].cmd != cmd
    ensures r.Some? ==> exists j | 0 <= j < n :: a[j] == Prop(cmd, r.value)
                          && forall k | 0 <= k < j :: a[k].cmd != cmd
  {
    match Find(a, n, cmd)
    case None => None
    case Some(i) => Some(a[i].data)
  }

  /** `dvb_fe_store_parm`: overwrite the value of the first in-use entry
      holding `cmd` and return 0, or return `EINVAL` and change nothing. */
  function Store(a: seq<Prop>, n: nat, cmd: u32, v: u32): (r: (seq<Prop>, int))
    requires n <= |a|
    ensures SameCmds(a, r.0)
    ensures r.1 == 0 || r.1 == EINVAL
    ensures r.1 == EINVAL <==> Retrieve(a, n, cmd).None?
    ensures r.1 == EINVAL ==> r.0 == a
    ensures r.1 == 0 ==> exists i | 0 <= i < n :: Find(a, n, cmd) == Some(i) && r.0 == a[i := Prop(cmd, v)]
  {
    match Find(a, n, cmd)
    case None => (a, EINVAL)
    case Some(i) => (a[i := Prop(cmd, v)], 0)
  }

  /** Retrieval reads the first in-use entry holding the command. */
  lemma RetrieveAt(a: seq<Prop>, n: nat, cmd: u32, j: nat)
    requires j < n <= |a| && a[j].cmd == cmd
    requires forall i | 0 <= i < j :: a[i].cmd != cmd
    ensures Retrieve(a, n, cmd) == Some(a[j].data)
  {
    assert Find(a, n, cmd) == Some(j);
  }

  /** The scan only looks at commands, so arrays with the same commands find
      the same entry. */
  lemma {:induction false} FindFromSameCmds(a: seq<Prop>, b: seq<Prop>, n: nat, cmd: u32, i: nat)
    requires SameCmds(a, b) && i <= n <= |a|
    ensures FindFrom(a, n, cmd, i) == FindFrom(b, n, cmd, i)
    decreases n - i
  {
    if i < n && a[i].cmd != cmd {
      FindFromSameCmds(a, b, n, cmd, i + 1);
    }
  }

  lemma FindSameCmds(a: seq<Prop>, b: seq<Prop>, n: nat, cmd: u32)
    requires SameCmds(a, b) && n <= |a|
    ensures Find(a, n, cmd) == Find(b, n, cmd)
  {
    FindFromSameCmds(a, b, n, cmd, 0);
  }

  /** Store then retrieve: the stored command reads back the stored value,
      every other command reads back what it read before, and an absent
      command stays absent. */
  lemma StoreRetrieve(a: seq<Prop>, n: nat, cmd: u32, v: u32, other: u32)
    requires n <= |a|
    ensures Retrieve(Store(a, n, cmd, v).0, n, cmd)
            == (if Retrieve(a, n, cmd).Some? then Some(v) else None)
    ensures other != cmd ==> Retrieve(Store(a, n, cmd, v).0, n, other) == Retrieve(a, n, other)
  {
    var b := Store(a, n, cmd, v).0;
    FindSameCmds(a, b, n, cmd);
    FindSameCmds(a, b, n, other);
  }

  /** Storing the value a command already reads back changes nothing. */
  lemma StoreCurrentValue(a: seq<Prop>, n: nat, cmd: u32, v: u32)
    requires n <= |a|
    requires Retrieve(a, n, cmd) == Some(v) || Retrieve(a, n, cmd).None?
    ensures Store(a, n, cmd, v).0 == a
  {
    match Find(a, n, cmd)
    case None =>
    case Some(i) =>
      assert a[i := Prop(cmd, v)] == a;
  }

  /** Storing a command's old value back undoes an earlier store to it. */
  lemma StoreRestore(a: seq<Prop>, n: nat, cmd: u32, v: u32, w: u32)
    requires n <= |a| && Retrieve(a, n, cmd) == Some(v)
    ensures Store(Store(a, n, cmd, w).0, n, cmd, v).0 == a
  {
    var b := Store(a, n, cmd, w).0;
    FindSameCmds(a, b, n, cmd);
    var i := Find(a, n, cmd).value;
    assert b[i := Prop(cmd, v)] == a;
  }

  /** A sequence of stores applied in order, each one's result ignored (as
      the source does with its runs of `dvb_fe_store_parm` calls). */
  function StoreAll(a: seq<Prop>, n: nat, ps: seq<Prop>): (r: seq<Prop>)
    requires n <= |a|
    ensures SameCmds(a, r)
    decreases |ps|
  {
    if ps == [] then a
    else StoreAll(Store(a, n, ps[0].cmd, ps[0].data).0, n, ps[1..])
  }

  /** The value the last element of `ps` for `cmd` carries, if any. */
  function LastValue(ps: seq<Prop>, cmd: u32): Option<u32>
    decreases |ps|
  {
    if ps == [] then None
    else
      var later := LastValue(ps[1..], cmd);
      if later.Some? then later
      else if ps[0].cmd == cmd then Some(ps[0].data)
      else None
  }

  /** The last value a run gives `cmd` is that of its last entry for `cmd`. */
  lemma {:induction false} LastValueAt(ps: seq<Prop>, i: nat, cmd: u32)
    requires i < |ps| && ps[i].cmd == cmd
    requires forall j | i < j < |ps| :: ps[j].cmd != cmd
    ensures LastValue(ps, cmd) == Some(ps[i].data)
    decreases |ps|
  {
    assert forall j | 1 <= j < |ps| :: ps[1..][j - 1] == ps[j];
    if i == 0 {
      LastValueAbsent(ps[1..], cmd);
    } else {
      LastValueAt(ps[1..], i - 1, cmd);
    }
  }

  lemma {:induction false} LastValueAbsent(ps: seq<Prop>, cmd: u32)
    requires forall j | 0 <= j < |ps| :: ps[j].cmd != cmd
    ensures LastValue(ps, cmd) == None
    decreases |ps|
  {
    if ps != [] {
      assert forall j | 1 <= j < |ps| :: ps[1..][j - 1] == ps[j];
      LastValueAbsent(ps[1..], cmd);
    }
  }

  /** A run in which every entry for `cmd` carries `w`, and at least one
      does, gives `cmd` the value `w`. */
  lemma {:induction false} LastValueUniform(ps: seq<Prop>, cmd: u32, w: u32, i: nat)
    requires i < |ps| && ps[i].cmd == cmd
    requires forall j | 0 <= j < |ps| && ps[j].cmd == cmd :: ps[j].data == w
    ensures LastValue(ps, cmd) == Some(w)
    decreases |ps|
  {
    assert forall j | 1 <= j < |ps| :: ps[1..][j - 1] == ps[j];
    if exists j | 1 <= j < |ps| :: ps[j].cmd == cmd {
      var j :| 1 <= j < |ps| && ps[j].cmd == cmd;
      LastValueUniform(ps[1..], cmd, w, j - 1);
    } else {
      assert i == 0;
      LastValueAbsent(ps[1..], cmd);
    }
  }

  /** Entry-wise meaning of a run of stores: an entry changes only if it is
      the first in-use entry of its command and the run mentions that
      command, and then it holds the last value the run gives it. */
  lemma {:induction false} StoreAllEntry(a: seq<Prop>, n: nat, ps: seq<Prop>, j: nat)
    requires n <= |a| && j < |a|
    ensures StoreAll(a, n, ps)[j]
            == if Find(a, n, a[j].cmd) == Some(j) && LastValue(ps, a[j].cmd).Some?
               then Prop(a[j].cmd, LastValue(ps, a[j].cmd).value)
               else a[j]
    decreases |ps|
  {
    if ps != [] {
      var a1 := Store(a, n, ps[0].cmd, ps[0].data).0;
      StoreAllEntry(a1, n, ps[1..], j);
      assert a1[j].cmd == a[j].cmd;
      FindSameCmds(a, a1, n, a[j].cmd);
      FindSameCmds(a, a1, n, ps[0].cmd);
    }
  }

  /** Entries whose command the run never mentions keep their contents. */
  lemma StoreAllUntouched(a: seq<Prop>, n: nat, ps: seq<Prop>)
    requires n <= |a|
    ensures forall j | 0 <= j < |a| && (forall k | 0 <= k < |ps| :: ps[k].cmd != a[j].cmd) ::
              StoreAll(a, n, ps)[j] == a[j]
  {
    forall j | 0 <= j < |a| && (forall k | 0 <= k < |ps| :: ps[k].cmd != a[j].cmd)
      ensures StoreAll(a, n, ps)[j] == a[j]
    {
      StoreAllEntry(a, n, ps, j);
      LastValueAbsent(ps, a[j].cmd);
    }
  }

  /** A run that mentions `cmd` gives it some last value. */
  lemma {:induction false} LastValuePresent(ps: seq<Prop>, cmd: u32, i: nat)
    requires i < |ps| && ps[i].cmd == cmd
    ensures LastValue(ps, cmd).Some?
    decreases |ps|
  {
    if i > 0 {
      assert ps[1..][i - 1] == ps[i];
      LastValuePresent(ps[1..], cmd, i - 1);
    }
  }

  /** A run that stores `cmd` overwrites its first in-use entry, so what
      that entry held beforehand makes no difference. */
  lemma StoreAllOverwrites(a: seq<Prop>, n: nat, ps: seq<Prop>, cmd: u32, v: u32, k: nat)
    requires n <= |a| && k < |ps| && ps[k].cmd == cmd && Find(a, n, cmd).Some?
    ensures StoreAll(a[Find(a, n, cmd).value := Prop(cmd, v)], n, ps) == StoreAll(a, n, ps)
  {
    var b := a[Find(a, n, cmd).value := Prop(cmd, v)];
    LastValuePresent(ps, cmd, k);
    forall j | 0 <= j < |a|
      ensures StoreAll(b, n, ps)[j] == StoreAll(a, n, ps)[j]
    {
      StoreAllEntry(a, n, ps, j);
      StoreAllEntry(b, n, ps, j);
      FindSameCmds(a, b, n, a[j].cmd);
    }
  }

  /** Repeating a run of stores has no further effect. */
  lemma StoreAllIdempotent(a: seq<Prop>, n: nat, ps: seq<Prop>)
    requires n <= |a|
    ensures StoreAll(StoreAll(a, n, ps), n, ps) == StoreAll(a, n, ps)
  {
    var b := StoreAll(a, n, ps);
    var c := StoreAll(b, n, ps);
    forall j | 0 <= j < |a|
      ensures c[j] == b[j]
    {
      StoreAllEntry(a, n, ps, j);
      StoreAllEntry(b, n, ps, j);
      FindSameCmds(a, b, n, a[j].cmd);
    }
  }

  /** A run of stores never touches entries at or beyond `n`. */
  lemma StoreAllBeyond(a: seq<Prop>, n: nat, ps: seq<Prop>, j: nat)
    requires n <= j < |a|
    ensures StoreAll(a, n, ps)[j] == a[j]
  {
    StoreAllEntry(a, n, ps, j);
  }

  /** After a run of stores, a command present in use reads back the last
      value the run gave it, or its old value if the run did not mention it. */
  lemma StoreAllRetrieve(a: seq<Prop>, n: nat, ps: seq<Prop>, cmd: u32)
    requires n <= |a|
    ensures Retrieve(StoreAll(a, n, ps), n, cmd)
            == if Retrieve(a, n, cmd).Some? && LastValue(ps, cmd).Some?
               then LastValue(ps, cmd) else Retrieve(a, n, cmd)
  {
    var b := StoreAll(a, n, ps);
    FindSameCmds(a, b, n, cmd);
    match Find(a, n, cmd)
    case None =>
    case Some(i) =>
      StoreAllEntry(a, n, ps, i);
  }

  /** A run of stores that only writes back the values the commands already
      read back changes nothing. */
  lemma {:induction false} StoreAllCurrentValues(a: seq<Prop>, n: nat, ps: seq<Prop>)
    requires n <= |a|
    requires forall k | 0 <= k < |ps| ::
               Retrieve(a, n, ps[k].cmd).None? || Retrieve(a, n, ps[k].cmd) == Some(ps[k].data)
    ensures StoreAll(a, n, ps) == a
    decreases |ps|
  {
    if ps != [] {
      StoreCurrentValue(a, n, ps[0].cmd, ps[0].data);
      assert forall k | 0 <= k < |ps[1..]| :: ps[1..][k] == ps[k + 1];
      StoreAllCurrentValues(a, n, ps[1..]);
    }
  }

  /** `x` is an order-preserving subsequence of `y`. */
  predicate IsSubsequence<T(==)>(x: seq<T>, y: seq<T>)
    decreases |y|
  {
    x == [] || (y != [] && ((x[0] == y[0] && IsSubsequence(x[1..], y[1..])) || IsSubsequence(x, y[1..])))
  }

  /** The number of entries whose command lies below the user range. */
  function StandardCount(a: seq<Prop>): (r: nat)
    ensures r <= |a|
    decreases |a|
  {
    if a == [] then 0
    else (if a[0].cmd < Cmd.UserCommandStart then 1 else 0) + StandardCount(a[1..])
  }

  /** Taking the commands keeps a subsequence a subsequence. */
  lemma {:induction false} SubsequenceCmds(x: seq<Prop>, y: seq<Prop>)
    requires IsSubsequence(x, y)
    ensures IsSubsequence(CmdsOf(x), CmdsOf(y))
    decreases |y|
  {
    if x != [] {
      assert CmdsOf(y)[1..] == CmdsOf(y[1..]);
      if x[0] == y[0] && IsSubsequence(x[1..], y[1..]) {
        SubsequenceCmds(x[1..], y[1..]);
        assert CmdsOf(x)[1..] == CmdsOf(x[1..]);
      } else {
        SubsequenceCmds(x, y[1..]);
      }
    }
  }

  /** `dvb_copy_fe_props`: the entries that may be sent to the device, i.e.
      those whose command lies below the user range, in their original order.
      The count it returns is the length of the result. */
  function CopyFeProps(a: seq<Prop>): (r: seq<Prop>)
    ensures |r| == StandardCount(a)
    ensures IsSubsequence(r, a)
    ensures forall k | 0 <= k < |r| :: r[k].cmd < Cmd.UserCommandStart
    ensures forall k | 0 <= k < |a| && a[k].cmd < Cmd.UserCommandStart :: a[k] in r
    decreases |a|
  {
    if a == [] then []
    else
      var rest := CopyFeProps(a[1..]);
      assert forall k | 1 <= k < |a| :: a[k] == a[1..][k - 1];
      if a[0].cmd < Cmd.UserCommandStart then
        assert ([a[0]] + rest)[1..] == rest;
        [a[0]] + rest
      else rest
  }

  /** Copying a list that holds no user-range command leaves it as it is. */
  lemma {:induction false} CopyFePropsKeepsStandard(a: seq<Prop>)
    requires forall k | 0 <= k < |a| :: a[k].cmd < Cmd.UserCommandStart
    ensures CopyFeProps(a) == a
    decreases |a|
  {
    if a != [] {
      CopyFePropsKeepsStandard(a[1..]);
    }
  }

  /** The commands of a list of entries. */
  function CmdsOf(a: seq<Prop>): (r: seq<u32>)
    ensures |r| == |a| && forall k | 0 <= k < |a| :: r[k] == a[k].cmd
  {
    seq(|a|, k requires 0 <= k < |a| => a[k].cmd)
  }
}

=== FILE: sec.dfy ===
/** Satellite equipment control (SEC) and DiSEqC: each operation issues at
    most one device call, whose outcome is an input, and returns the C return
    code together with the calls it issued. */
module Sec {
  import opened DvbTypes
  import opened Device

  datatype SecResult = SecResult(rc: int, calls: seq<Call>)

  /** Return code of a forwarded control call: the call's own -1 on failure. */
  function IoctlRc(reply: Ioctl): int {
    if reply.Failed? then -1 else 0
  }

  /** `dvb_fe_sec_voltage`: off whenever `on` is 0, whatever `v18` says;
      otherwise 18 V or 13 V as `v18` asks. */
  function SecVoltage(on: int, v18: int, reply: Ioctl): (r: SecResult)
    ensures |r.calls| == 1 && r.calls[0].SetVoltage?
    ensures r.calls[0].voltage == VoltageOff <==> on == 0
    ensures r.calls[0].voltage == Voltage18 <==> on != 0 && v18 != 0
    ensures r.rc == -1 <==> reply.Failed?
    ensures reply.Done? ==> r.rc == 0
  {
    var v := if on == 0 then VoltageOff else if v18 != 0 then Voltage18 else Voltage13;
    SecResult(IoctlRc(reply), [SetVoltage(v)])
  }

  /** `dvb_fe_sec_tone`: the tone mode is forwarded unchanged. */
  function SecTone(tone: int, reply: Ioctl): (r: SecResult)
    ensures r.calls == [SetTone(tone)]
    ensures r.rc == -1 <==> reply.Failed?
    ensures reply.Done? ==> r.rc == 0
  {
    SecResult(IoctlRc(reply), [SetTone(tone)])
  }

  /** `dvb_fe_lnb_high_voltage`: any non-zero flag is normalised to 1. */
  function LnbHighVoltage(on: int, reply: Ioctl): (r: SecResult)
    ensures |r.calls| == 1 && r.calls[0].EnableHighLnbVoltage?
    ensures r.calls[0].on in {0, 1}
    ensures r.calls[0].on == 1 <==> on != 0
    ensures r.rc == -1 <==> reply.Failed?
    ensures reply.Done? ==> r.rc == 0
  {
    SecResult(IoctlRc(reply), [EnableHighLnbVoltage(if on != 0 then 1 else 0)])
  }

  /** `dvb_fe_diseqc_burst`: mini command B for a non-zero flag, A otherwise. */
  function DiseqcBurst(miniB: int, reply: Ioctl): (r: SecResult)
    ensures |r.calls| == 1 && r.calls[0].SendBurst?
    ensures r.calls[0].mini == MiniB <==> miniB != 0
    ensures r.rc == -1 <==> reply.Failed?
    ensures reply.Done? ==> r.rc == 0
  {
    SecResult(IoctlRc(reply), [SendBurst(if miniB != 0 then MiniB else MiniA)])
  }

  /** The call each control operation issues determines its request up to
      the normalisation the source applies: two requests give the same call
      exactly when they agree once `on`, `v18`, the high-voltage flag and the
      burst flag are read as booleans (and `v18` only matters when `on`). */
  lemma SecCallsDetermineRequest(on1: int, v1: int, on2: int, v2: int, reply: Ioctl)
    ensures SecVoltage(on1, v1, reply).calls == SecVoltage(on2, v2, reply).calls
            <==> (on1 == 0) == (on2 == 0) && (on1 == 0 || (v1 == 0) == (v2 == 0))
    ensures LnbHighVoltage(on1, reply).calls == LnbHighVoltage(on2, reply).calls <==> (on1 == 0) == (on2 == 0)
    ensures DiseqcBurst(on1, reply).calls == DiseqcBurst(on2, reply).calls <==> (on1 == 0) == (on2 == 0)
  {
  }

  /** Longest DiSEqC master command (`msg` of `struct dvb_diseqc_master_cmd`). */
  const MaxMasterLen: nat := 6
  /** Longest DiSEqC slave reply (`msg` of `struct dvb_diseqc_slave_reply`). */
  const MaxReplyLen: nat := 4

  /** `dvb_fe_diseqc_cmd`: a command longer than 6 bytes is refused with
      `-EINVAL` before any device call; otherwise it is sent as it is. */
  function DiseqcCmd(msg: seq<u8>, reply: Ioctl): (r: SecResult)
    ensures |msg| > MaxMasterLen <==> r.calls == []
    ensures |msg| > MaxMasterLen ==> r.rc == -EINVAL
    ensures |msg| <= MaxMasterLen ==> r.calls == [SendMasterCmd(msg)] && (r.rc == -1 <==> reply.Failed?)
    ensures |msg| <= MaxMasterLen && reply.Done? ==> r.rc == 0
  {
    if |msg| > MaxMasterLen then SecResult(-EINVAL, [])
    else SecResult(IoctlRc(reply), [SendMasterCmd(msg)])
  }

  /** What `dvb_fe_diseqc_reply` hands back: return code, the length left in
      `*len`, and the calls issued. */
  datatype ReplyResult = ReplyResult(rc: int, len: nat, payload: Option<seq<u8>>, calls: seq<Call>)

  /** The requested reply length after the clamp. */
  function ClampReplyLen(len: u32): (r: nat)
    ensures r <= MaxReplyLen && r <= len
    ensures r == len || r == MaxReplyLen
  {
    if len > MaxReplyLen then MaxReplyLen else len
  }

  /** `dvb_fe_diseqc_reply` as written. The requested length is clamped to 4
      before the call and the clamped value stays in `*len` on every path.
      QUIRK: the reply block is passed to the device call by value, so the
      device's answer never reaches the local copy; on success `*len` is the
      clamped request and the payload copied out is not the device's. The
      `answer` (the device's reply bytes, `None` on failure) is therefore
      ignored. */
  function DiseqcReply(len: u32, timeout: int, answer: Option<seq<u8>>): (r: ReplyResult)
    ensures r.calls == [RecvSlaveReply(ClampReplyLen(len), timeout)]
    ensures r.len == ClampReplyLen(len)
    ensures r.rc == -1 <==> answer.None?
    ensures answer.Some? ==> r.rc == 0
    ensures r.payload.None?
  {
    var n := ClampReplyLen(len);
    ReplyResult(if answer.None? then -1 else 0, n, None, [RecvSlaveReply(n, timeout)])
  }

  /** `dvb_fe_diseqc_reply` with the block passed by address, as intended:
      on success the caller receives the device's bytes, at most as many as
      the clamped request and never more than the block holds. */
  function DiseqcReplyFixed(len: u32, timeout: int, answer: Option<seq<u8>>): (r: ReplyResult)
    ensures r.calls == [RecvSlaveReply(ClampReplyLen(len), timeout)]
    ensures r.rc == -1 <==> answer.None?
    ensures answer.Some? ==> r.rc == 0
    ensures answer.None? ==> r.len == ClampReplyLen(len)
    ensures answer.Some? ==> r.payload.Some? && r.len == |r.payload.value| <= ClampReplyLen(len)
    ensures answer.Some? && |answer.value| <= ClampReplyLen(len) ==> r.payload == answer
  {
    var n := ClampReplyLen(len);
    if answer.None? then ReplyResult(-1, n, None, [RecvSlaveReply(n, timeout)])
    else
      var got := if |answer.value| <= n then answer.value else answer.value[..n];
      ReplyResult(0, |got|, Some(got), [RecvSlaveReply(n, timeout)])
  }

  /** As written, the length handed back never depends on what the device
      answered: a one-byte answer to a four-byte request still reports four. */
  lemma DiseqcReplyIgnoresDevice(len: u32, timeout: int, a: seq<u8>, b: seq<u8>)
    ensures DiseqcReply(len, timeout, Some(a)) == DiseqcReply(len, timeout, Some(b))
    ensures DiseqcReply(4, timeout, Some([0xE4])).len == 4
    ensures DiseqcReplyFixed(4, timeout, Some([0xE4])).len == 1
  {
  }
}

=== FILE: stats.dfy ===
/** Signal statistics: `dvb_fe_retrieve_stats`, `dvb_fe_store_stats` and
    `dvb_fe_get_stats`. The session keeps one entry per statistics command. */
module Stats {
  import opened DvbTypes
  import Cmd
  import opened PropStore
  import opened Device
  import opened Frontend

  /** `dvb_fe_retrieve_stats`: the value of the statistics entry for `cmd`,
      or `None` (the C code's `EINVAL`) for a command that is not a statistic. */
  function RetrieveStats(s: Session, cmd: u32): (r: Option<u32>)
    requires Valid(s)
    ensures r.None? <==> cmd !in StatCmds
    ensures r.Some? ==> exists k | 0 <= k < |StatCmds| :: StatCmds[k] == cmd && s.stats[k].data == r.value
  {
    Retrieve(s.stats, |StatCmds|, cmd)
  }

  /** `dvb_fe_store_stats`: overwrite the statistics entry for `cmd`, or
      return `EINVAL` for a command that is not a statistic. */
  function StoreStats(s: Session, cmd: u32, v: u32): (r: Step)
    requires Valid(s)
    ensures Valid(r.s) && r.s == s.(stats := r.s.stats) && r.calls == []
    ensures r.rc == 0 || r.rc == EINVAL
    ensures r.rc == EINVAL <==> cmd !in StatCmds
    ensures r.rc == EINVAL ==> r.s == s
    ensures r.rc == 0 ==> RetrieveStats(r.s, cmd) == Some(v)
    ensures forall c | c != cmd :: RetrieveStats(r.s, c) == RetrieveStats(s, c)
  {
    var stored := Store(s.stats, |StatCmds|, cmd, v);
    var r := Step(s.(stats := stored.0), stored.1, []);
    StoreRetrieve(s.stats, |StatCmds|, cmd, v, cmd);
    forall c | c != cmd
      ensures RetrieveStats(r.s, c) == RetrieveStats(s, c)
    {
      StoreRetrieve(s.stats, |StatCmds|, cmd, v, c);
    }
    r
  }

  /** What the five read calls return; `None` for a call that failed. */
  datatype Readings = Readings(status: Option<u32>, ber: Option<u32>, strength: Option<u16>,
                               snr: Option<u16>, ucb: Option<u32>)

  /** The value kept for each reading. A failed status read becomes -1 (all
      bits set), a failed error count becomes 0, and a failed strength or SNR
      read becomes the 16-bit -1, widened to 32 bits. */
  function StatusOf(rd: Readings): u32 { if rd.status.Some? then rd.status.value else 0xFFFF_FFFF }
  function BerOf(rd: Readings): u32 { if rd.ber.Some? then rd.ber.value else 0 }
  function StrengthOf(rd: Readings): u32 { if rd.strength.Some? then rd.strength.value else 0xFFFF }
  function SnrOf(rd: Readings): u32 { if rd.snr.Some? then rd.snr.value else 0xFFFF }
  function UcbOf(rd: Readings): u32 { if rd.ucb.Some? then rd.ucb.value else 0 }

  /** The five reads, in the order `dvb_fe_get_stats` issues them. */
  const StatReads: seq<Call> := [ReadStatus, ReadBer, ReadSignalStrength, ReadSnr, ReadUncorrectedBlocks]

  /** A statistic reads back from its own entry: the statistics commands
      are distinct, so the first match is the entry at its own index. */
  lemma StatsReadBack(s: Session, k: nat)
    requires Valid(s) && k < |StatCmds|
    ensures RetrieveStats(s, StatCmds[k]) == Some(s.stats[k].data)
  {
    var r := RetrieveStats(s, StatCmds[k]);
    assert s.stats[k].cmd == StatCmds[k];
    var j :| 0 <= j < |StatCmds| && StatCmds[j] == StatCmds[k] && s.stats[j].data == r.value;
    assert j == k;
  }

  /** Store one value per statistics command, in `StatCmds` order: each
      entry ends up holding its own value. */
  function StoreReadings(s: Session, values: seq<u32>): (r: Session)
    requires Valid(s) && |values| == |StatCmds|
    ensures Valid(r) && r == s.(stats := r.stats)
    ensures forall k | 0 <= k < |StatCmds| :: r.stats[k] == Prop(StatCmds[k], values[k])
  {
    var ps := seq(|StatCmds|, k requires 0 <= k < |StatCmds| => Prop(StatCmds[k], values[k]));
    var r := s.(stats := StoreAll(s.stats, |StatCmds|, ps));
    forall k | 0 <= k < |StatCmds|
      ensures r.stats[k] == Prop(StatCmds[k], values[k])
    {
      assert s.stats[k].cmd == StatCmds[k];
      assert Find(s.stats, |StatCmds|, StatCmds[k]) == Some(k);
      LastValueAt(ps, k, StatCmds[k]);
      StoreAllEntry(s.stats, |StatCmds|, ps, k);
    }
    r
  }

  /** `dvb_fe_get_stats` as written: read the five statistics, keep each
      (or its failure value), and return the status as a C `int`, so a failed
      status read returns -1.
      QUIRK: the uncorrected-block count is stored with the SNR reading; the
      block count the device returned is dropped. */
  function GetStats(s: Session, rd: Readings): (r: Step)
    requires Valid(s)
    ensures Valid(r.s) && r.s == s.(stats := r.s.stats)
    ensures r.calls == StatReads
    ensures r.rc == AsInt32(StatusOf(rd))
    ensures rd.status.None? ==> r.rc == -1
    ensures rd.status.Some? && rd.status.value < 0x8000_0000 ==> r.rc == rd.status.value
    ensures r.s.stats == [Prop(Cmd.Status, StatusOf(rd)), Prop(Cmd.Ber, BerOf(rd)),
                          Prop(Cmd.SignalStrength, StrengthOf(rd)), Prop(Cmd.Snr, SnrOf(rd)),
                          Prop(Cmd.UncorrectedBlocks, SnrOf(rd))]
    ensures RetrieveStats(r.s, Cmd.Status) == Some(StatusOf(rd))
  {
    var r := StoreReadings(s, [StatusOf(rd), BerOf(rd), StrengthOf(rd), SnrOf(rd), SnrOf(rd)]);
    StatsReadBack(r, 0);
    Step(r, AsInt32(StatusOf(rd)), StatReads)
  }

  /** `dvb_fe_get_stats` as intended: the uncorrected-block count keeps the
      device's count. Everything else is as written. */
  function GetStatsFixed(s: Session, rd: Readings): (r: Step)
    requires Valid(s)
    ensures Valid(r.s) && r.s == s.(stats := r.s.stats)
    ensures r.calls == StatReads && r.rc == GetStats(s, rd).rc
    ensures r.s.stats == GetStats(s, rd).s.stats[4 := Prop(Cmd.UncorrectedBlocks, UcbOf(rd))]
    ensures RetrieveStats(r.s, Cmd.UncorrectedBlocks) == Some(UcbOf(rd))
  {
    var r := StoreReadings(s, [StatusOf(rd), BerOf(rd), StrengthOf(rd), SnrOf(rd), UcbOf(rd)]);
    StatsReadBack(r, 4);
    Step(r, AsInt32(StatusOf(rd)), StatReads)
  }

  /** As written, the block count the device reports never reaches the
      session: a device reporting 7 blocks with an SNR of 300 leaves 300. */
  lemma GetStatsDropsUcb(s: Session, rd: Readings, ucb: Option<u32>)
    requires Valid(s)
    ensures GetStats(s, rd) == GetStats(s, rd.(ucb := ucb))
    ensures RetrieveStats(GetStats(s, Readings(Some(0), Some(0), Some(0), Some(300), Some(7))).s,
                          Cmd.UncorrectedBlocks) == Some(300)
    ensures RetrieveStats(GetStatsFixed(s, Readings(Some(0), Some(0), Some(0), Some(300), Some(7))).s,
                          Cmd.UncorrectedBlocks) == Some(7)
  {
    StatsReadBack(GetStats(s, Readings(Some(0), Some(0), Some(0), Some(300), Some(7))).s, 4);
  }
}

=== FILE: types.dfy ===
/** Vocabulary shared by the whole model: the fixed-width integers of the C
    interface, property entries, return codes, and the enumerations of the
    Linux DVB frontend API that the compatibility layer switches on. */
module DvbTypes {

  type u8 = x: int | 0 <= x < 0x100
  type u16 = x: int | 0 <= x < 0x1_0000
  type u32 = x: int | 0 <= x < 0x1_0000_0000

  datatype Option<T> = None | Some(value: T)

  /** One `struct dtv_property`: a command id and its 32-bit value (`u.data`). */
  datatype Prop = Prop(cmd: u32, data: u32)

  /** The Linux errno for an invalid argument. The library returns it both
      positive and negated, depending on the function. */
  const EINVAL: int := 22

  /** The C `int` that a 32-bit unsigned value turns into when a function
      declared to return `int` returns it (two's complement reinterpretation). */
  function AsInt32(x: u32): (r: int)
    ensures -0x8000_0000 <= r < 0x8000_0000
    ensures r % 0x1_0000_0000 == x
    ensures x < 0x8000_0000 <==> r >= 0
  {
    if x < 0x8000_0000 then x else x - 0x1_0000_0000
  }
}

/** `fe_delivery_system_t`. The device may report any 32-bit value, so the
    systems are plain numbers with named constants rather than a closed
    datatype. `SYS_DVBC_ANNEX_AC` is an alias of `SYS_DVBC_ANNEX_A` in the
    Linux header, so both names denote `DvbcAnnexA` here. */
module DelSys {
  import opened DvbTypes

  const Undefined: u32 := 0
  const DvbcAnnexA: u32 := 1
  const DvbcAnnexB: u32 := 2
  const DvbT: u32 := 3
  const Dss: u32 := 4
  const DvbS: u32 := 5
  const DvbS2: u32 := 6
  const DvbH: u32 := 7
  const IsdbT: u32 := 8
  const IsdbS: u32 := 9
  const IsdbC: u32 := 10
  const Atsc: u32 := 11
  const AtscMh: u32 := 12
  const DmbTh: u32 := 13
  const Cmmb: u32 := 14
  const Dab: u32 := 15
  const DvbT2: u32 := 16
  const Turbo: u32 := 17
  const DvbcAnnexC: u32 := 18
}

/** Property command ids: the kernel's `DTV_*` commands below
    `UserCommandStart`, the library's own user-range commands from it on, and
    the library's statistics commands. */
module Cmd {
  import opened DvbTypes

  const Tune: u32 := 1
  const Frequency: u32 := 3
  const Modulation: u32 := 4
  const BandwidthHz: u32 := 5
  const Inversion: u32 := 6
  const SymbolRate: u32 := 8
  const InnerFec: u32 := 9
  const DeliverySystem: u32 := 17
  const IsdbtPartialReception: u32 := 18
  const IsdbtSoundBroadcasting: u32 := 19
  const IsdbtSbSubchannelId: u32 := 20
  const IsdbtSbSegmentIdx: u32 := 21
  const IsdbtSbSegmentCount: u32 := 22
  const IsdbtLayerAFec: u32 := 23
  const IsdbtLayerAModulation: u32 := 24
  const IsdbtLayerASegmentCount: u32 := 25
  const IsdbtLayerATimeInterleaving: u32 := 26
  const IsdbtLayerBFec: u32 := 27
  const IsdbtLayerBModulation: u32 := 28
  const IsdbtLayerBSegmentCount: u32 := 29
  const IsdbtLayerBTimeInterleaving: u32 := 30
  const IsdbtLayerCFec: u32 := 31
  const IsdbtLayerCModulation: u32 := 32
  const IsdbtLayerCSegmentCount: u32 := 33
  const IsdbtLayerCTimeInterleaving: u32 := 34
  const ApiVersion: u32 := 35
  const CodeRateHp: u32 := 36
  const CodeRateLp: u32 := 37
  const GuardInterval: u32 := 38
  const TransmissionMode: u32 := 39
  const Hierarchy: u32 := 40
  const IsdbtLayerEnabled: u32 := 41
  const EnumDelsys: u32 := 44

  /** First id of the library's user range; ids from here on never reach the device. */
  const UserCommandStart: u32 := 256

  const Status: u32 := 512
  const Ber: u32 := 513
  const SignalStrength: u32 := 514
  const Snr: u32 := 515
  const UncorrectedBlocks: u32 := 516

  /** `FEC_AUTO` of `fe_code_rate_t` and `QAM_AUTO` of `fe_modulation_t`. */
  const FecAuto: u32 := 9
  const QamAuto: u32 := 6
}
